=== FILE: README.md ===
# TreeVisualizer core, modelled in Dafny

TreeVisualizer is a Swing viewer for a radial node-link diagram of a tree. Its trees may share nodes and contain cycles ("fractal" trees). This project models the logic under the Swing layer as pure Dafny functions and proves what that logic promises. It covers five parts:

- **`Tree` / `Tree.Node`** (`tree_model.dfy`). The tree is an arena: a map from node id to `{data, parent, children}`.
  - `addChild(T)` creates a fresh child with its parent pointer set.
  - `addChild(Node)` re-attaches an existing node and leaves its parent pointer alone, which is how cycles arise.
  - Every operation only appends. A tree built with `addChild(T)` alone is acyclic.
- **`TreeLoader.loadTreeFile`** (`tree_loader.dfy`). The file is given as a string.
  - The text is cut into tags at `<`, the way `Scanner.useDelimiter("<")` does, and each tag is cut into words at Java whitespace.
  - An opening tag `id name>` adds a child below the current node and descends into it.
  - A tag whose id starts with `/` climbs one level, and at the root it ends the parse.
  - A missing word is the `NoSuchElementException` error.
- **`TreeController`** (`geometry.dfy`, `layout.dfy`, `tree_controller.dfy`):
  - `drawNode` is a pure recursion producing the ordered list of drawing commands of one frame. It covers radius thresholds, culling against the 800×600 viewport, angular slots and the child shrink factor.
  - The hit test runs over the recorded circles.
  - `doLinesIntersect` is the segment-intersection test used to cull edges.
  - `setZoom` keeps the zoom positive.
- **Easing curves** `interpolateCos` and `interpolateBack` (`easing.dfy`).
- **The camera of `TreeVisualizer`** (`tree_visualizer.dfy`). It is a state machine over current, begin and target camera offset and zoom, an elapsed-time accumulator, and a flag for the running pan timer. The handlers are:
  - the timer tick;
  - `mouseDragged`, `mousePressed`, `mouseClicked` and `mouseWheelMoved`;
  - `panCameraToPoint`, `zoomView`, `zoomCameraSmooth` and `resetView`;
  - the draw call of `paint`;
  - the tree swap of the Load button.

How Java values are represented:

- Doubles are exact reals.
- A `(long)` cast of a double rounds toward zero (`JavaMath.Trunc`).
- An `(int)` cast, and an `int` subtraction that may overflow, wrap to 32 bits (`JavaMath.Int32`).
- `Math.sin` and `Math.cos` are a pair of functions passed in as a `Trig` value. All the model assumes about them is stated in `ValidTrig`:
  - both lie in [-1, 1];
  - sine is non-negative on [0, π];
  - `cos 0 = 1` and `cos π = -1`.

Behaviour of the code worth knowing, all of it modelled as written:

- **Edge culling** (`TreeController.java:232-245`). An edge is skipped only when each endpoint has both coordinates off screen and the segment crosses no border of the viewport. An endpoint with just one coordinate in range keeps the edge.
- **Zoom centre** (`TreeVisualizer.java:396-417`). `zoomView` takes a mouse position but never reads it, so wheel zooming is about the viewport centre, not about the mouse.
- **Choice of easing curve** (`TreeVisualizer.java:293`). Each tick re-chooses the curve from `beginZoom < targetZoom`. `resetView` (`TreeVisualizer.java:449-461`) changes `targetZoom` without stopping a running pan, so the curve can switch in the middle of that pan.
- **Hit test** (`TreeController.java:88-94`). The distance is computed from `int` coordinate differences, which wrap.

## Model

| member | source | states |
|---|---|---|
| TreeModel.GetRootNode | src/treevisualizer/Tree.java:32-34 | the root is a node of the tree |
| TreeModel.GetData | src/treevisualizer/Tree.java:93-95 | writing back with `setData` the data just read leaves the tree unchanged |
| TreeModel.GetParent | src/treevisualizer/Tree.java:102-104 | a parent is always a node of the tree |
| TreeModel.GetChildren | src/treevisualizer/Tree.java:112-114 | every child is a node of the tree |
| TreeModel.AddChildSeenByGetters | src/treevisualizer/Tree.java:69-73 | after `addChild(data)` the getters show the new node holding the data, with this node as parent and no children, last among this node's children; the root and this node's data and parent are unchanged |
| TreeModel.AttachSeenByGetters | src/treevisualizer/Tree.java:83-86 | after `addChild(node)` the getters show that node last among the children, returned, with its own data, parent and children unchanged |
| TreeModel.SetDataSeenByGetters | src/treevisualizer/Tree.java:122-124 | after `setData` `getData` returns the new data and the parent, children and root are unchanged |
| TreeModel.NewTree | src/treevisualizer/Tree.java:23-25 | a new tree has exactly one node, the root, holding the given data with no parent and no children |
| TreeModel.NewNode | src/treevisualizer/Tree.java:56-60 | the node constructor adds one fresh id with the given data and parent and no children, leaving every other node and the root as they were |
| TreeModel.AddChild | src/treevisualizer/Tree.java:69-73 | `addChild(data)` adds exactly one fresh node whose parent is this node. It is appended after this node's existing children, and every other node is unchanged |
| TreeModel.Attach | src/treevisualizer/Tree.java:83-86 | `addChild(node)` appends an existing node to the children. The attached node's parent and data are untouched, and no node is added |
| TreeModel.SetData | src/treevisualizer/Tree.java:122-124 | `setData` replaces only the data of one node; parent, children, the other nodes and the root stay the same |
| TreeModel.ApplyGrows | src/treevisualizer/Tree.java:69-86 | every public operation keeps the arena well formed and is append-only: same root, no node lost, parent pointers kept, children lists only extended at the end |
| TreeModel.ReplayOnlyGrows | src/treevisualizer/Tree.java:107-114 | over any history of operations the children lists only grow and keep their insertion order, and the root never changes |
| TreeModel.NewTreeShaped | src/treevisualizer/Tree.java:23-25 | a new tree is well shaped: parent pointers and children lists agree, and every child has a larger id than its parent |
| TreeModel.AddChildKeepsShape | src/treevisualizer/Tree.java:69-73 | `addChild(data)` keeps a tree well shaped |
| TreeModel.SetDataKeepsShape | src/treevisualizer/Tree.java:122-124 | `setData` keeps a tree well shaped |
| TreeModel.PathIdsIncrease | src/treevisualizer/Tree.java:69-73 | along any parent-to-child path of a well-shaped tree the ids strictly increase |
| TreeModel.ShapedIsAcyclic | src/treevisualizer/Tree.java:69-73 | a tree built only with `addChild(data)` has no cycle: no path returns to its start |
| TreeModel.AttachMakesFractal | src/treevisualizer/Tree.java:76-86 | attaching the root below its own child makes the root its own descendant; the root still has no parent, and the tree is no longer well shaped |
| TreeLoader.Tags | src/treevisualizer/TreeLoader.java:29-31 | no tag produced by cutting at `<` contains a `<` |
| TreeLoader.TagsJoinTags | src/treevisualizer/TreeLoader.java:29-31 | cutting at `<` recovers exactly the non-empty, `<`-free tags that were joined with `<` |
| TreeLoader.Words | src/treevisualizer/TreeLoader.java:34-36 | every word the scanner yields is non-empty and free of Java whitespace |
| TreeLoader.WordsJoinWords | src/treevisualizer/TreeLoader.java:34-36 | splitting words joined by whitespace, followed by blank text, gives back those words |
| TreeLoader.TagStep | src/treevisualizer/TreeLoader.java:43-59 | one tag: a missing word is an error; a closing tag at the root stops; a closing tag elsewhere climbs to the parent and leaves the tree alone; an opening tag appends one fresh child named by the second word minus its last character and makes it current |
| TreeLoader.Run | src/treevisualizer/TreeLoader.java:42-60 | the loading loop only appends, keeps every node's data, and yields a well-shaped (hence acyclic) tree. It fails only when some tag lacks a word it reads, and it succeeds when no tag does. A first tag without its words fails. When no tag is a closing one, it fails exactly when some tag lacks a word. It adds at most one node per tag, and exactly one per tag when no tag closes. Every node it adds holds the name of some opening tag |
| TreeLoader.Load | src/treevisualizer/TreeLoader.java:24-65 | input without a tag gives a lone root holding null; a first tag with fewer than two words is an error; otherwise the root is named by the first tag and the result is well shaped. A later tag lacking a word it reads is the only other error, and the load succeeds when no later tag lacks one. When no later tag closes, it fails exactly when one lacks a word, and otherwise the tree has one node per tag. There are never more nodes than tags, and every node but the root holds the name of a later opening tag |
| TreeLoader.CloseAtRootIgnoresRest | src/treevisualizer/TreeLoader.java:48-51 | a closing tag at the root ends the parse and everything after it is ignored |
| TreeLoader.ClosingIdNotMatched | src/treevisualizer/TreeLoader.java:45-54 | any two closing tags act the same: the closing id is never matched against the opening one |
| TreeLoader.OpenThenCloseTwice | src/treevisualizer/TreeLoader.java:42-60 | from the root, an opening tag and two closing tags append one named child to the root and then stop |
| TreeLoader.LoadTwoLevels | src/treevisualizer/TreeLoader.java:24-65 | any text whose four tags hold the words `id1 name1>`, `id2 name2>`, `/id2>`, `/id1>` loads as a root named name1 whose only child is named name2 and points back to the root |
| TreeLoader.LoadParentAndChild | src/treevisualizer/TreeLoader.java:24-65 | the file `<id1 name1>` `<id2 name2>` `</id2>` `</id1>` loads as a root named name1 with one child named name2 whose parent is the root |
| JavaMath.Int32 | src/treevisualizer/TreeController.java:161 | an `(int)` cast yields the unique 32-bit value congruent to its argument modulo 2^32, and is the identity in range |
| JavaMath.Trunc | src/treevisualizer/TreeController.java:140 | a `(long)` cast of a double rounds toward zero |
| Geometry.InCircleIsDistance | src/treevisualizer/TreeController.java:88-94 | a point is in a circle exactly when its distance from the centre is strictly less than the radius |
| Geometry.InCircleStrict | src/treevisualizer/TreeController.java:88-94 | points on the rim never hit, and any circle that is hit has radius at least 1 |
| Geometry.CircleVisibleIffBoxMeetsScreen | src/treevisualizer/TreeController.java:144-146 | a circle is kept exactly when its bounding box shares a point with the closed 800×600 viewport |
| Geometry.IntersectSound | src/treevisualizer/TreeController.java:288-312 | when `doLinesIntersect` answers true, its two parameters lie in [0, 1] and name the same point on both segments |
| Geometry.IntersectComplete | src/treevisualizer/TreeController.java:288-312 | non-parallel segments that share a point are reported as intersecting |
| Geometry.ParallelNeverReported | src/treevisualizer/TreeController.java:294-299 | segments whose directions have zero cross product are never reported, whether or not they share points |
| Geometry.OverlappingParallelNotReported | src/treevisualizer/TreeController.java:294-299 | an example: two collinear segments that overlap on [5, 10] are not reported |
| Geometry.DiagonalsCross | src/treevisualizer/TreeController.java:288-312 | (0,0)-(10,10) and (0,10)-(10,0) intersect |
| Geometry.OnScreenEdgeKept | src/treevisualizer/TreeController.java:232-245 | edge culling is sound: a segment with any point in the closed viewport is never skipped |
| Layout.Hue | src/treevisualizer/TreeController.java:148 | a node's hue lies in [0, 1) and picks colour number depth mod 7 of seven |
| Layout.HueCycles | src/treevisualizer/TreeController.java:148 | colours repeat every seven levels and a child never has its parent's hue |
| Layout.Radius | src/treevisualizer/TreeController.java:140 | the radius of a node of non-negative size at positive zoom is never negative |
| Layout.SlotCount | src/treevisualizer/TreeController.java:195-198 | a node has one slot per child plus exactly one more, for the edge to its parent, precisely when it is not the root |
| Layout.ChildAngle | src/treevisualizer/TreeController.java:200-206 | the slot angle lies in (0, π]; the slots never cover more than the full turn; they cover it exactly for two or more slots; a single slot gets π |
| Layout.ChildSizePercent | src/treevisualizer/TreeController.java:209-213 | a child's size percent is between 0 and 0.64 of its parent's |
| Layout.BudgetShrinks | src/treevisualizer/TreeController.java:164-213 | below a node drawn with radius at least 2, a child's depth budget is strictly smaller, so the recursion ends even through cycles |
| Layout.DrawNode | src/treevisualizer/TreeController.java:134-263 | every command obeys the culling rules; every label follows its node's circle; depths stay within the budget; the node's own circle comes first exactly when it is visible and every later circle is deeper; below radius 2 at most the own circle; no circle is larger than the node's |
| Layout.DrawFan | src/treevisualizer/TreeController.java:189-218 | the children's part of a frame obeys the culling rules, only holds circles deeper than the node, and no circle is larger than the node's |
| Layout.DrawChildren | src/treevisualizer/TreeController.java:220-262 | the loop over the children yields culled commands of deeper circles within the depth budget |
| Layout.ChildrenInOrder | src/treevisualizer/TreeController.java:220-262 | every child is drawn, in child order. The loop's commands from child i on are, in order: the edge to child i (nothing, or one line at the parent's depth); child i's whole drawing, one level deeper, at the child size, facing its parent, centred within 200·size·zoom of the parent in each coordinate; then the commands for the children after it. The child's depth budget is smaller than its parent's |
| Layout.FanLaysOutChildren | src/treevisualizer/TreeController.java:189-218 | a node without children draws no children's part; otherwise that part is the loop over all children from the first, with the slot angle of `SlotCount` and the child size percent of that angle |
| Layout.NodeThenFan | src/treevisualizer/TreeController.java:152-192 | from radius 2 on, a node's drawing is at most two commands of the node itself (circle and label, no edge) followed by exactly its children's part |
| Layout.ChildCentre | src/treevisualizer/TreeController.java:252-257 | a child's centre lies within 200·size·zoom of its parent's centre in each coordinate, whatever the angle |
| Layout.EdgeTo | src/treevisualizer/TreeController.java:222-251 | the edge to a child is at most one line, drawn at the parent's depth and kept only under the culling rule |
| Layout.LabelIffDrawnAndBig | src/treevisualizer/TreeController.java:169-170 | a node's label comes right after its circle exactly when the circle is drawn and its radius is at least 10 |
| Layout.CulledNodeKeepsChildren | src/treevisualizer/TreeController.java:142-167 | a culled node of radius at least 2 still lays out its children |
| TreeController.NewController | src/treevisualizer/TreeController.java:38-42 | a new controller holds the tree, has zoom exactly 1 and no recorded circles |
| TreeController.GetZoom | src/treevisualizer/TreeController.java:319-321 | the zoom read back is positive, and setting it again changes nothing |
| TreeController.SetTree | src/treevisualizer/TreeController.java:50-52 | `setTree` changes only the tree |
| TreeController.SetZoom | src/treevisualizer/TreeController.java:330-333 | a positive zoom is taken, any other request is ignored, and a positive zoom stays positive |
| TreeController.ZoomStaysPositive | src/treevisualizer/TreeController.java:330-333 | after any sequence of `setZoom` requests the zoom is still positive |
| TreeController.Recorded | src/treevisualizer/TreeController.java:161 | every recorded circle is the `(int)`-cast circle of a drawn oval, and there are no more circles than commands |
| TreeController.RecordedConcat | src/treevisualizer/TreeController.java:106-161 | recording follows drawing order: the circles of two consecutive runs of commands are those of the first run followed by those of the second |
| TreeController.RecordedSingle | src/treevisualizer/TreeController.java:161 | an oval records exactly its cast circle, once; a label or an edge records nothing |
| TreeController.RecordedSource | src/treevisualizer/TreeController.java:161 | each recorded circle comes from an oval of the frame |
| TreeController.Draw | src/treevisualizer/TreeController.java:106-111 | drawing keeps tree and zoom, and the recorded list is exactly the circles of the frame's ovals, in drawing order, one per oval |
| TreeController.DrawForgetsEarlierFrames | src/treevisualizer/TreeController.java:106-111 | the list is cleared first: nothing recorded by an earlier frame survives a draw |
| TreeController.FrameDepthBounded | src/treevisualizer/TreeController.java:106-111 | a frame never goes deeper than the budget of the root, cycles notwithstanding, and starts with the root's circle when it is visible |
| TreeController.DrawnCirclesOnScreen | src/treevisualizer/TreeController.java:144-161 | when no cast wraps, every recorded circle is visible, with a radius between 0 and the root's |
| TreeController.DrawRecordsRootFirst | src/treevisualizer/TreeController.java:106-161 | when the root is visible, the first recorded circle is the root's, at the drawing position |
| TreeController.CircleAtPoint | src/treevisualizer/TreeController.java:68-75 | the hit test returns none exactly when no circle contains the point; a returned circle is recorded, contains the point and has radius at least 1 |
| TreeController.CircleAtPointIsFirstHit | src/treevisualizer/TreeController.java:68-75 | the circle found is the first in drawing order that contains the point (and there is only one such first hit) |
| TreeController.GetCircleAtPoint | src/treevisualizer/TreeController.java:68-75 | the loop returns the first recorded circle containing the point, or none |
| TreeController.FirstHitFound | src/treevisualizer/TreeController.java:68-75 | the hit test returns the circle at any first-hit position |
| TreeController.EarlierCircleWins | src/treevisualizer/TreeController.java:55-75 | when two recorded circles contain the point, the hit test does not return the later one (unless it was also recorded earlier) |
| TreeController.OwnCircleThenFan | src/treevisualizer/TreeController.java:152-192 | a visible node of radius at least 2 records its own circle first and then exactly what its children's part records |
| TreeController.LeafRecordsItsCircle | src/treevisualizer/TreeController.java:152-192 | a visible node without children records exactly its own circle |
| TreeController.LeafChildrenRecordOneEach | src/treevisualizer/TreeController.java:220-262 | when the parent's reach lies inside the viewport, each leaf child records exactly one circle, so the loop records one circle per remaining child |
| TreeController.StarFrame | src/treevisualizer/TreeController.java:106-262 | a root whose children are all leaves, drawn at zoom 1 at (400, 300), records exactly one circle per node, the root's circle (400, 300) of radius 50 first |
| TreeController.SingleNodeFrame | src/treevisualizer/TreeController.java:106-162 | a single-node tree at zoom 1 drawn at the viewport centre records exactly the circle (400, 300) of radius 50 |
| Easing.CosEndpoints | src/treevisualizer/TreeVisualizer.java:343-345 | the cosine curve starts at begin and ends at end |
| Easing.CosBetween | src/treevisualizer/TreeVisualizer.java:343-345 | the cosine curve never leaves the interval between begin and end |
| Easing.BackEndpoints | src/treevisualizer/TreeVisualizer.java:359-364 | the back curve starts at begin and ends at end |
| Easing.BackWeightFactors | src/treevisualizer/TreeVisualizer.java:359-364 | the back curve's weight factors as t((s+1)(t-1)² - (t-1) + 1), so it is non-negative on [0, 1] and positive once t > 0 |
| Easing.BackNotBelowBegin | src/treevisualizer/TreeVisualizer.java:359-364 | moving up with the back curve never falls below begin, and is strictly above it once t > 0 |
| Easing.BackOvershoots | src/treevisualizer/TreeVisualizer.java:347-364 | the back curve overshoots: at t = 0.9 it is past its end |
| Easing.EaseEndpoints | src/treevisualizer/TreeVisualizer.java:293-318 | whichever curve is chosen runs from begin at t = 0 to end at t = 1 |
| TreeVisualizer.Init | src/treevisualizer/TreeVisualizer.java:117-126 | the constructor leaves camera and target at the origin with zoom 1, the pan timer stopped, the invariant established and no circles recorded |
| TreeVisualizer.TickSecondsValue | src/treevisualizer/TreeVisualizer.java:126 | the timer delay `1000 / 30` gives 0.033 s per tick |
| TreeVisualizer.Tick | src/treevisualizer/TreeVisualizer.java:289-324 | a tick adds 0.033 s capped at the duration; zoom and both camera coordinates follow one curve, the back curve exactly when the begin zoom is below the target zoom, at the elapsed fraction of the duration; the timer runs on exactly while time is left; begin and target stay; at the end camera and zoom are exactly the target; zooming out keeps zoom and camera between begin and target; zooming in keeps the zoom above its begin value |
| TreeVisualizer.TickBringsEndCloser | src/treevisualizer/TreeVisualizer.java:320-324 | each tick of a running pan brings the number of remaining ticks down |
| TreeVisualizer.Settle | src/treevisualizer/TreeVisualizer.java:284-324 | the pan timer always stops, and a running pan ends exactly at its target camera and target zoom |
| TreeVisualizer.Animate | src/treevisualizer/TreeVisualizer.java:289-324 | ticking until the timer stops reaches the settled state after the first tick count at which the time reaches the duration: 31 ticks for a pan started from 0 |
| TreeVisualizer.Press | src/treevisualizer/TreeVisualizer.java:197-201 | a press only remembers the mouse position |
| TreeVisualizer.Drag | src/treevisualizer/TreeVisualizer.java:171-192 | a drag moves the camera by the mouse offset, makes begin and target equal to current for camera and zoom, resets the time and stops the timer |
| TreeVisualizer.DragsCompose | src/treevisualizer/TreeVisualizer.java:171-190 | two drags leave the same state as one drag straight to the final mouse position |
| TreeVisualizer.PressThenDragInPlace | src/treevisualizer/TreeVisualizer.java:171-201 | pressing and dragging at the same point does not move the camera |
| TreeVisualizer.PanCameraToPoint | src/treevisualizer/TreeVisualizer.java:374-383 | a pan starts from the current camera, resets the time, and aims at the offset that brings the given screen point to the viewport centre; nothing else changes (zoom, target zoom, tree, recorded circles and mouse position are kept) |
| TreeVisualizer.ZoomFactorSign | src/treevisualizer/TreeVisualizer.java:407-409 | the requested zoom is the old zoom times 1 + amount/10, and it is positive exactly when amount > -10 |
| TreeVisualizer.ZoomView | src/treevisualizer/TreeVisualizer.java:396-421 | a zoom step cancels any animation, scales the zoom by 1 + amount/10 unless that is not positive, and scales the camera offset by the same ratio; the controller changes only in its zoom, and the mouse position is kept |
| TreeVisualizer.ZoomKeepsCentreFixed | src/treevisualizer/TreeVisualizer.java:396-417 | a zoom step scales every point's distance from the viewport centre by the zoom ratio, so the centre stays put |
| TreeVisualizer.MouseWheel | src/treevisualizer/TreeVisualizer.java:464-468 | each wheel notch zooms by 5% (in or out), twenty or more notches out are ignored, and the camera scales with the zoom; like a zoom step it stops the timer, resets the time, makes begin and target the old camera and zoom, and keeps the tree, the recorded circles and the mouse position |
| TreeVisualizer.ZoomCameraSmooth | src/treevisualizer/TreeVisualizer.java:429-444 | a smooth zoom leaves the current zoom unchanged, aims at the requested zoom if positive and at the current one otherwise, scales the target offset by the zoom ratio and starts the timer; camera, begin camera, controller and mouse position are kept |
| TreeVisualizer.ResetView | src/treevisualizer/TreeVisualizer.java:449-461 | reset puts camera and target at the origin with zoom 1 and changes nothing else: a running pan keeps running from its begin camera and begin zoom, and the tree, recorded circles and mouse position are kept |
| TreeVisualizer.ResetHoldsAfterPan | src/treevisualizer/TreeVisualizer.java:449-461 | even in the middle of a pan, a reset ends at the origin with zoom 1 |
| TreeVisualizer.MouseClicked | src/treevisualizer/TreeVisualizer.java:224-235 | only a double click on a recorded circle does anything, and then it focuses on the circle the hit test returns |
| TreeVisualizer.ClickZoomFacts | src/treevisualizer/TreeVisualizer.java:229-230 | the zoom a double click asks for is positive and scales the hit radius to 50 |
| TreeVisualizer.FocusOn | src/treevisualizer/TreeVisualizer.java:229-232 | focusing starts a pan from the current camera whose target zoom makes the circle's radius 50 and whose target offset cancels the circle's offset from the centre, rescaled to the new zoom; the controller and the mouse position are kept |
| TreeVisualizer.FocusCentres | src/treevisualizer/TreeVisualizer.java:229-232 | once focusing ends, the circle's world position sits at the viewport centre and its node has radius 50 |
| TreeVisualizer.DoubleClickCentresNode | src/treevisualizer/TreeVisualizer.java:224-235 | double-clicking a node and letting the animation end centres the node and gives it the primary radius |
| TreeVisualizer.Paint | src/treevisualizer/TreeVisualizer.java:152-153 | painting keeps the invariant and changes nothing but the recorded circles: tree, zoom, camera, animation and mouse state are untouched |
| TreeVisualizer.PaintIdempotent | src/treevisualizer/TreeVisualizer.java:152-153 | painting twice records the same circles as painting once |
| TreeVisualizer.PaintRecordsRootFirst | src/treevisualizer/TreeVisualizer.java:152-153 | when the root's centre is on screen, a double click at it after painting hits the root's circle |
| TreeVisualizer.OpenTree | src/treevisualizer/TreeVisualizer.java:259-272 | a file that parses replaces the tree and resets the view, changing nothing else: a running pan, its begin state, the recorded circles and the mouse position are kept; a parse failure changes nothing |

## Left out

- Floating point: doubles are exact reals, so rounding in `Math.pow`, `Math.cos`, the easing curves and the zoom arithmetic is not modelled.
- `long` overflow and the saturation of `(long)` casts at the 64-bit bounds (`JavaMath.Trunc`): coordinates are unbounded integers. `(int)` casts and `int` subtractions do wrap.
- `Math.sin` and `Math.cos` are parameters, constrained only as `ValidTrig` states, so no exact pixel position of a child is proved.
- Swing and AWT have no logic worth stating here:
  - frame, menu bar, buttons and `Graphics` calls;
  - strokes, the conversion of the hue to HSB colours, and the fonts;
  - the label text and its font-size fit, which needs font metrics;
  - the `DecimalFormat` zoom label and the on-screen help text.
- The zoom slider and its own timer (`TreeVisualizer.java:204-207`, `237-242`, `273-283`) are UI plumbing. The zoom they request goes through the same `zoomView` that is modelled.
- The Quit button (`TreeVisualizer.java:247-249`) only closes the window.
- Timer scheduling and event dispatch are not modelled. The pan timer is the `panning` flag, and a tick is an explicit call.
- File I/O:
  - `File`, `JFileChooser` and `IOException` are not modelled; the loader parses an in-memory string.
  - A `NoSuchElementException` from the scanner becomes `Err(NoSuchElement)`.
  - The tree data is `Option<string>`, so the null root datum of an empty file is `None`.
  - The `NullPointerException` that painting a null datum's label would raise is not modelled.
- `displayExampleTree` (`TreeVisualizer.java:472-516`) is fixture data. `Init` takes any well-formed tree instead, and `TreeModel.AttachMakesFractal` covers the same mechanism, attaching an ancestor below its own descendant, on a smaller tree.
- Unicode: characters are code points. The whitespace set is exactly that of `Character.isWhitespace` in Java 7 and 8, the releases current when the code was written (2014). It includes U+180E MONGOLIAN VOWEL SEPARATOR, which Java 9 and later no longer count, so on those releases a word holding U+180E is not split there. No whitespace character lies outside the Basic Multilingual Plane, so words split the same way as in Java 7 and 8.
- TreeLoader.TagName: drops the last code point of the word, where Java's `substring(0, length() - 1)` drops the last UTF-16 unit; a name ending in a character outside the Basic Multilingual Plane keeps half a surrogate pair in Java and loses the whole character here.
- Layout.DrawNode: its contract states ordering, culling, depth and size facts. It does not state the exact coordinates of children, because those depend on `Math.sin` and `Math.cos`; `Layout.ChildCentre` only bounds them. Which children are drawn, and in which order, is stated by `Layout.NodeThenFan`, `Layout.FanLaysOutChildren` and `Layout.ChildrenInOrder`.
- Layout.DrawFan: its own postconditions are facts about each command, which an empty list also meets. That it draws the loop over every child is stated by `Layout.FanLaysOutChildren`, outside the function: a postcondition naming the loop inside this mutually recursive group of functions does not verify within the solver's resource limit.
- Layout.DrawChildren: its own postconditions are facts about each command, which an empty list also meets. That it draws child i and then the later children is stated by `Layout.ChildrenInOrder`, for the same reason as for `Layout.DrawFan`.
- TreeLoader.Run: the error case is pinned down exactly only when no tag closes. In general the loop fails exactly when a tag lacking a word is reached before the root is closed, and that depends on the nesting depth. The contract bounds it from both sides instead: it fails only if some tag lacks a word, and it succeeds if none does. The node count is exact only when no tag closes; otherwise it is an upper bound.
- TreeLoader.Load: inherits the error and count bounds of `TreeLoader.Run` for the tags after the first.
- TreeVisualizer.Tick: for the back curve only the zoom's lower bound is stated; how far camera and zoom overshoot is not bounded.
- Geometry.InCircleIsDistance: compares squared distances exactly, where the source compares `Math.pow(…, 0.5)` of a double sum with the radius.
- Layout.Radius: states only that the radius is non-negative; its value is the truncated product by definition.
- TreeVisualizer.DoubleClickCentresNode: assumes the clicked circle sits exactly at its world position scaled by the zoom. Truncation in the layout moves real circles by less than a pixel.

=== FILE: easing.dfy ===
/** The two easing curves of the camera animation, over exact reals: a
    cosine ease-in-out, and the "back" ease-out polynomial that overshoots
    its target before settling on it. */
module Easing {
  import opened JavaMath
  import opened RealArith

  /** The overshoot constant of the back ease-out. */
  const BackOvershoot: real := 1.70158

  /** `interpolateCos`: half a cosine period stretched from `begin` to `end`. */
  function InterpolateCos(tr: Trig, begin: real, end: real, t: real): real {
    (end - begin) * (-0.5 * tr.cos(Pi * t) + 0.5) + begin
  }

  /** `interpolateBack`: the cubic ease-out with overshoot `BackOvershoot`. */
  function InterpolateBack(begin: real, end: real, t: real): real {
    var s := BackOvershoot;
    var t2 := t - 1.0;
    (t2 * t2 * ((s + 1.0) * t2 + s) + 1.0) * (end - begin) + begin
  }

  /** The share of the way from begin to end the back curve has covered. */
  function BackWeight(t: real): real {
    var t2 := t - 1.0;
    t2 * t2 * ((BackOvershoot + 1.0) * t2 + BackOvershoot) + 1.0
  }

  function Min(a: real, b: real): real { if a <= b then a else b }
  function Max(a: real, b: real): real { if a <= b then b else a }

  /** The cosine curve starts at `begin` and ends at `end`, given the exact
      values of `Math.cos` at 0 and at `Math.PI`. */
  lemma CosEndpoints(tr: Trig, begin: real, end: real)
    requires ValidTrig(tr)
    ensures InterpolateCos(tr, begin, end, 0.0) == begin
    ensures InterpolateCos(tr, begin, end, 1.0) == end
  {
    assert Pi * 0.0 == 0.0 && Pi * 1.0 == Pi;
  }

  /** The cosine curve never leaves the interval between its endpoints. */
  lemma CosBetween(tr: Trig, begin: real, end: real, t: real)
    requires ValidTrig(tr)
    ensures Min(begin, end) <= InterpolateCos(tr, begin, end, t) <= Max(begin, end)
  {
    var w := -0.5 * tr.cos(Pi * t) + 0.5;
    assert 0.0 <= w <= 1.0;
    WeightedBetween(begin, end, w);
  }

  /** A point a fraction w in [0, 1] of the way from b to e lies between them. */
  lemma WeightedBetween(b: real, e: real, w: real)
    requires 0.0 <= w <= 1.0
    ensures Min(b, e) <= (e - b) * w + b <= Max(b, e)
  {
    if b <= e {
      var d := e - b;
      ProductNonNegative(w, d);
      ProductNonNegative(1.0 - w, d);
    } else {
      var d := b - e;
      ProductNonNegative(w, d);
      ProductNonNegative(1.0 - w, d);
    }
  }

  /** The back curve is exactly the weighted step with `BackWeight`, which
      is 0 at the start and 1 at the end. */
  lemma BackEndpoints(begin: real, end: real)
    ensures InterpolateBack(begin, end, 0.0) == begin
    ensures InterpolateBack(begin, end, 1.0) == end
  {
    assert BackWeight(0.0) == 0.0;
    assert BackWeight(1.0) == 1.0;
  }

  /** The weight factors as t * ((s + 1) u^2 - u + 1) with u = t - 1, whose
      second factor is positive for u <= 0; so on [0, 1] the weight is never
      negative, and it is positive once t > 0. */
  lemma {:induction false} BackWeightFactors(t: real)
    ensures BackWeight(t) == t * ((BackOvershoot + 1.0) * (t - 1.0) * (t - 1.0) - (t - 1.0) + 1.0)
    ensures 0.0 <= t <= 1.0 ==> 0.0 <= BackWeight(t)
    ensures 0.0 < t <= 1.0 ==> 0.0 < BackWeight(t)
  {
    var u := t - 1.0;
    var q := (BackOvershoot + 1.0) * u * u - u + 1.0;
    assert BackWeight(t) == (BackOvershoot + 1.0) * u * u * u + BackOvershoot * u * u + 1.0;
    assert (u + 1.0) * q == (BackOvershoot + 1.0) * u * u * u + BackOvershoot * u * u + 1.0;
    if t <= 1.0 {
      assert u * u >= 0.0;
      assert (BackOvershoot + 1.0) * u * u >= 0.0;
      assert q >= 1.0;
      if 0.0 <= t {
        assert t * q >= 0.0;
      }
      if 0.0 < t {
        assert t * q > 0.0;
      }
    }
  }

  /** Zooming in or panning forward with the back curve never falls short of
      the start: for begin <= end and t in [0, 1] the value is at least
      `begin`, strictly above it once t > 0 and begin < end. */
  lemma BackNotBelowBegin(begin: real, end: real, t: real)
    requires begin <= end && 0.0 <= t <= 1.0
    ensures begin <= InterpolateBack(begin, end, t)
    ensures 0.0 < t && begin < end ==> begin < InterpolateBack(begin, end, t)
  {
    var w, d := BackWeight(t), end - begin;
    BackWeightSign(t);
    BackIsWeighted(begin, end, t);
    ProductNonNegative(w, d);
    if 0.0 < t && begin < end {
      ProductPositive(w, d);
    }
  }

  /** The sign facts of `BackWeightFactors` alone. */
  lemma BackWeightSign(t: real)
    requires 0.0 <= t <= 1.0
    ensures 0.0 <= BackWeight(t)
    ensures 0.0 < t ==> 0.0 < BackWeight(t)
  {
    BackWeightFactors(t);
  }

  /** The back curve moves `BackWeight(t)` of the way from begin to end. */
  lemma BackIsWeighted(begin: real, end: real, t: real)
    ensures InterpolateBack(begin, end, t) == BackWeight(t) * (end - begin) + begin
  {
  }

  /** The back curve does overshoot: at t = 0.9 it is past the end. */
  lemma BackOvershoots()
    ensures InterpolateBack(0.0, 1.0, 0.9) > 1.0
  {
  }

  /** The two curves of the camera animation. */
  datatype Curve = Cosine | Back

  /** The back curve is used exactly when zooming in. */
  function ChooseCurve(beginZoom: real, targetZoom: real): (c: Curve)
    ensures c == Back <==> beginZoom < targetZoom
  {
    if beginZoom < targetZoom then Back else Cosine
  }

  function Ease(tr: Trig, c: Curve, begin: real, end: real, t: real): real {
    match c
    case Cosine => InterpolateCos(tr, begin, end, t)
    case Back => InterpolateBack(begin, end, t)
  }

  /** Either curve runs from begin (t = 0) to end (t = 1). */
  lemma EaseEndpoints(tr: Trig, c: Curve, begin: real, end: real)
    requires ValidTrig(tr)
    ensures Ease(tr, c, begin, end, 0.0) == begin
    ensures Ease(tr, c, begin, end, 1.0) == end
  {
    CosEndpoints(tr, begin, end);
    BackEndpoints(begin, end);
  }
}

=== FILE: geometry.dfy ===
/** The plane geometry of the tree drawing: the recorded circles and the
    strict point-in-circle test behind the hit test, the culling of circles
    and edges against the fixed 800 x 600 viewport, and the parametric
    segment-intersection test the edge culling relies on. */
module Geometry {
  import opened JavaMath
  import opened RealArith

  const ViewWidth: int := 800
  const ViewHeight: int := 600

  /** A circle as recorded for hit testing, after the `(int)` casts. */
  datatype Circle = Circle(x: int, y: int, radius: int)

  /** The point lies strictly inside the circle. The two deltas are `int`
      subtractions, so they wrap; the square root of their squared sum is
      compared with the radius, which for a non-negative root is the same
      as comparing squares (see `InCircleIsDistance`). */
  predicate InCircle(px: int, py: int, c: Circle) {
    var dx := Int32(px - c.x);
    var dy := Int32(py - c.y);
    0 < c.radius && dx * dx + dy * dy < c.radius * c.radius
  }

  /** `InCircle` is the source's test "distance from the centre < radius",
      for the distance `d` as the non-negative square root. */
  lemma InCircleIsDistance(px: int, py: int, c: Circle, d: real)
    requires 0.0 <= d
    requires d * d == (Int32(px - c.x) * Int32(px - c.x) + Int32(py - c.y) * Int32(py - c.y)) as real
    ensures InCircle(px, py, c) <==> d < c.radius as real
  {
    var r := c.radius as real;
    if d < r {
      assert d * d < r * r by { SquareMonotone(d, r); }
    } else if 0.0 < r {
      assert r * r <= d * d by { SquareMonotoneWeak(r, d); }
    }
  }

  /** Containment is strict: a point on the rim is never inside, and a
      circle that contains any point has radius at least 1. */
  lemma InCircleStrict(px: int, py: int, c: Circle)
    ensures var dx, dy := Int32(px - c.x), Int32(py - c.y);
            dx * dx + dy * dy == c.radius * c.radius ==> !InCircle(px, py, c)
    ensures InCircle(px, py, c) ==> c.radius >= 1
  {
  }

  /** A circle of centre (x, y) and radius r is kept unless its bounding box
      lies strictly left, right, above or below the viewport. */
  predicate CircleVisible(x: int, y: int, r: int) {
    !(x + r < 0 || x - r > ViewWidth || y + r < 0 || y - r > ViewHeight)
  }

  /** The viewport as a closed rectangle. */
  predicate OnScreen(px: int, py: int) {
    0 <= px <= ViewWidth && 0 <= py <= ViewHeight
  }

  function Clamp(v: int, lo: int, hi: int): (r: int)
    requires lo <= hi
    ensures lo <= r <= hi
    ensures lo <= v <= hi ==> r == v
  {
    if v < lo then lo else if v > hi then hi else v
  }

  /** For a non-negative radius the culling test keeps exactly the circles
      whose bounding box shares a point with the closed viewport. */
  lemma CircleVisibleIffBoxMeetsScreen(x: int, y: int, r: int)
    requires 0 <= r
    ensures CircleVisible(x, y, r) <==>
              exists px, py :: OnScreen(px, py) && x - r <= px <= x + r && y - r <= py <= y + r
  {
    if CircleVisible(x, y, r) {
      var px, py := Clamp(x, 0, ViewWidth), Clamp(y, 0, ViewHeight);
      assert OnScreen(px, py) && x - r <= px <= x + r && y - r <= py <= y + r;
    }
  }

  /** A line segment between two points with integer (long) coordinates. */
  datatype Segment = Segment(x1: int, y1: int, x2: int, y2: int)

  /** The 2-D cross product of two direction vectors. */
  function Cross(ux: int, uy: int, vx: int, vy: int): int {
    ux * vy - uy * vx
  }

  /** The cross product of the directions of the two segments; zero exactly
      when they are parallel. */
  function Denominator(s: Segment, e: Segment): int {
    Cross(s.x2 - s.x1, s.y2 - s.y1, e.x2 - e.x1, e.y2 - e.y1)
  }

  /** The point at parameter t along a segment (t = 0 is its first end). */
  function PointX(s: Segment, t: real): real {
    s.x1 as real + t * (s.x2 - s.x1) as real
  }

  function PointY(s: Segment, t: real): real {
    s.y1 as real + t * (s.y2 - s.y1) as real
  }

  /** `doLinesIntersect`: parallel segments (zero denominator) never
      intersect; otherwise the parameter of the crossing point along each
      segment is computed in long arithmetic, divided in double, and both
      must lie in [0, 1]. */
  predicate DoLinesIntersect(s: Segment, e: Segment) {
    var line1X, line1Y := s.x2 - s.x1, s.y2 - s.y1;
    var line2X, line2Y := e.x2 - e.x1, e.y2 - e.y1;
    var d := line1X * line2Y - line1Y * line2X;
    if d == 0 then false
    else
      var deltaX1, deltaY1 := e.x1 - s.x1, e.y1 - s.y1;
      var t := (deltaX1 * line2Y - deltaY1 * line2X) as real / d as real;
      if t < 0.0 || t > 1.0 then false
      else
        var u := (deltaX1 * line1Y - deltaY1 * line1X) as real / d as real;
        !(u < 0.0 || u > 1.0)
  }

  /** The parameters the test computes, along the first and the second segment. */
  function Params(s: Segment, e: Segment): (tu: (real, real))
    requires Denominator(s, e) != 0
  {
    var d := Denominator(s, e) as real;
    (Cross(e.x1 - s.x1, e.y1 - s.y1, e.x2 - e.x1, e.y2 - e.y1) as real / d,
     Cross(e.x1 - s.x1, e.y1 - s.y1, s.x2 - s.x1, s.y2 - s.y1) as real / d)
  }

  /** Soundness: when the test answers true, the computed parameters name
      one point lying on both segments. */
  lemma IntersectSound(s: Segment, e: Segment)
    requires DoLinesIntersect(s, e)
    ensures Denominator(s, e) != 0
    ensures var (t, u) := Params(s, e);
            && 0.0 <= t <= 1.0 && 0.0 <= u <= 1.0
            && PointX(s, t) == PointX(e, u) && PointY(s, t) == PointY(e, u)
  {
    assert Denominator(s, e) != 0;
    ParamsMeet(s, e);
  }

  /** For segments that are not parallel, the two parameters the test
      computes name the same point of the two carrier lines. */
  lemma ParamsMeet(s: Segment, e: Segment)
    requires Denominator(s, e) != 0
    ensures var (t, u) := Params(s, e);
            PointX(s, t) == PointX(e, u) && PointY(s, t) == PointY(e, u)
  {
    var rx, ry, sx, sy := s.x2 - s.x1, s.y2 - s.y1, e.x2 - e.x1, e.y2 - e.y1;
    var dx, dy := e.x1 - s.x1, e.y1 - s.y1;
    var d := Denominator(s, e);
    var tn, un := Cross(dx, dy, sx, sy), Cross(dx, dy, rx, ry);
    var (t, u) := Params(s, e);
    DivideBack(tn as real, d as real);
    DivideBack(un as real, d as real);
    CrossIdentityX(dx, dy, rx, ry, sx, sy);
    CrossIdentityY(dx, dy, rx, ry, sx, sy);
    MeetScaled(s.x1 as real, e.x1 as real, t, u, rx as real, sx as real, d as real, tn as real, un as real);
    MeetScaled(s.y1 as real, e.y1 as real, t, u, ry as real, sy as real, d as real, tn as real, un as real);
  }

  /** Multiplied through by the denominator, the x coordinates of the two
      candidate points agree. */
  lemma CrossIdentityX(dx: int, dy: int, rx: int, ry: int, sx: int, sy: int)
    ensures (dx * Cross(rx, ry, sx, sy) + Cross(dx, dy, rx, ry) * sx) as real
            == (Cross(dx, dy, sx, sy) * rx) as real
  {
    assert dx * Cross(rx, ry, sx, sy) == dx * rx * sy - dx * ry * sx;
    assert Cross(dx, dy, rx, ry) * sx == dx * ry * sx - dy * rx * sx;
    assert Cross(dx, dy, sx, sy) * rx == dx * sy * rx - dy * sx * rx;
  }

  /** The same for the y coordinates. */
  lemma CrossIdentityY(dx: int, dy: int, rx: int, ry: int, sx: int, sy: int)
    ensures (dy * Cross(rx, ry, sx, sy) + Cross(dx, dy, rx, ry) * sy) as real
            == (Cross(dx, dy, sx, sy) * ry) as real
  {
    assert dy * Cross(rx, ry, sx, sy) == dy * rx * sy - dy * ry * sx;
    assert Cross(dx, dy, rx, ry) * sy == dx * ry * sy - dy * rx * sy;
    assert Cross(dx, dy, sx, sy) * ry == dx * sy * ry - dy * sx * ry;
  }

  /** One coordinate of the meeting point, from its version multiplied by d. */
  lemma MeetScaled(p: real, q: real, t: real, u: real, r: real, v: real, d: real, tn: real, un: real)
    requires d != 0.0 && t * d == tn && u * d == un
    requires (q - p) * d + un * v == tn * r
    ensures p + t * r == q + u * v
  {
    assert (p + t * r) * d == p * d + tn * r;
    assert (q + u * v) * d == q * d + un * v;
    assert (p + t * r) * d == (q + u * v) * d;
    CancelFactor(p + t * r, q + u * v, d);
  }

  /** Completeness: two non-parallel segments that share a point (at
      parameters t and u in [0, 1]) are reported as intersecting. */
  lemma IntersectComplete(s: Segment, e: Segment, t: real, u: real)
    requires Denominator(s, e) != 0
    requires 0.0 <= t <= 1.0 && 0.0 <= u <= 1.0
    requires PointX(s, t) == PointX(e, u) && PointY(s, t) == PointY(e, u)
    ensures DoLinesIntersect(s, e)
  {
    ParamsOfMeetingPoint(s, e, t, u);
  }

  /** The parameters the test computes are those of any common point. */
  lemma ParamsOfMeetingPoint(s: Segment, e: Segment, t: real, u: real)
    requires Denominator(s, e) != 0
    requires PointX(s, t) == PointX(e, u) && PointY(s, t) == PointY(e, u)
    ensures Params(s, e) == (t, u)
  {
    var rx, ry, sx, sy := s.x2 - s.x1, s.y2 - s.y1, e.x2 - e.x1, e.y2 - e.y1;
    var dx, dy := e.x1 - s.x1, e.y1 - s.y1;
    var d := Denominator(s, e);
    CrossAsReal(rx, ry, sx, sy);
    CrossAsReal(dx, dy, sx, sy);
    CrossAsReal(dx, dy, rx, ry);
    assert dx as real == t * rx as real - u * sx as real;
    assert dy as real == t * ry as real - u * sy as real;
    ParamsRecovered(dx as real, dy as real, rx as real, ry as real, sx as real, sy as real, t, u);
    DivideExact(Cross(dx, dy, sx, sy) as real, d as real, t);
    DivideExact(Cross(dx, dy, rx, ry) as real, d as real, u);
  }

  lemma CrossAsReal(ux: int, uy: int, vx: int, vy: int)
    ensures Cross(ux, uy, vx, vy) as real == ux as real * vy as real - uy as real * vx as real
  {
  }

  /** If the offset between the segments' starts is t r - u v, the two
      cross products of the test are t d and u d. */
  lemma ParamsRecovered(dx: real, dy: real, rx: real, ry: real, sx: real, sy: real, t: real, u: real)
    requires dx == t * rx - u * sx && dy == t * ry - u * sy
    ensures dx * sy - dy * sx == t * (rx * sy - ry * sx)
    ensures dx * ry - dy * rx == u * (rx * sy - ry * sx)
  {
  }

  lemma DivideExact(n: real, d: real, t: real)
    requires d != 0.0 && n == t * d
    ensures n / d == t
  {
  }

  /** Parallel segments (zero cross product of their directions) are never
      reported, whether or not they share points. */
  lemma ParallelNeverReported(s: Segment, e: Segment)
    requires Denominator(s, e) == 0
    ensures !DoLinesIntersect(s, e)
  {
  }

  /** For example two collinear segments overlapping on [5, 10]. */
  lemma OverlappingParallelNotReported()
    ensures !DoLinesIntersect(Segment(0, 0, 10, 0), Segment(5, 0, 15, 0))
  {
  }

  /** The two diagonals of a square cross. */
  lemma DiagonalsCross()
    ensures DoLinesIntersect(Segment(0, 0, 10, 10), Segment(0, 10, 10, 0))
  {
  }

  /** The four borders of the viewport. */
  const TopBorder: Segment := Segment(0, 0, ViewWidth, 0)
  const RightBorder: Segment := Segment(ViewWidth, 0, ViewWidth, ViewHeight)
  const LeftBorder: Segment := Segment(0, 0, 0, ViewHeight)
  const BottomBorder: Segment := Segment(0, ViewHeight, ViewWidth, ViewHeight)

  predicate OffX(x: int) { x < 0 || x > ViewWidth }
  predicate OffY(y: int) { y < 0 || y > ViewHeight }

  /** An edge is culled only when each endpoint has both coordinates out of
      range and the edge crosses none of the four borders. */
  predicate EdgeVisible(l: Segment) {
    if OffX(l.x1) && OffY(l.y1) && OffX(l.x2) && OffY(l.y2) then
      DoLinesIntersect(l, TopBorder) || DoLinesIntersect(l, RightBorder)
      || DoLinesIntersect(l, LeftBorder) || DoLinesIntersect(l, BottomBorder)
    else true
  }

  /** The parameter at which one coordinate, starting out of [lo, hi] at a1
      and heading to a2, reaches the nearer bound. */
  function EntryParam(a1: int, a2: int, lo: int, hi: int): real
    requires a1 != a2
  {
    ((if a1 < lo then lo else hi) - a1) as real / (a2 - a1) as real
  }

  /** If a coordinate starts out of [lo, hi] and is inside at parameter s,
      it reaches the nearer bound at `EntryParam`, no later than s, and stays
      inside from there up to s. */
  lemma EntryFacts(a1: int, a2: int, lo: int, hi: int, s: real, s2: real)
    requires lo <= hi && (a1 < lo || a1 > hi)
    requires 0.0 <= s <= 1.0
    requires lo as real <= a1 as real + s * (a2 - a1) as real <= hi as real
    ensures a1 != a2
    ensures 0.0 < EntryParam(a1, a2, lo, hi) <= s
    ensures a1 as real + EntryParam(a1, a2, lo, hi) * (a2 - a1) as real == (if a1 < lo then lo else hi) as real
    ensures EntryParam(a1, a2, lo, hi) <= s2 <= s ==>
              lo as real <= a1 as real + s2 * (a2 - a1) as real <= hi as real
  {
    var r := (a2 - a1) as real;
    ZeroFactor(s, r);
    var se := EntryParam(a1, a2, lo, hi);
    DivideBack(((if a1 < lo then lo else hi) - a1) as real, r);
    if a1 < lo {
      PositiveFactor(s, r);
      ScaleBack(se, s, r);
      if se <= s2 <= s {
        ScaleUp(se, s2, r);
        ScaleUp(s2, s, r);
      }
    } else {
      NegativeFactor(s, r);
      ScaleBackNegative(se, s, r);
      if se <= s2 <= s {
        ScaleDown(se, s2, r);
        ScaleDown(s2, s, r);
      }
    }
  }

  /** Edge culling never drops an edge that has a point on the screen: a
      segment with both ends in the corner regions that reaches the closed
      viewport must cross one of its borders. */
  lemma OnScreenEdgeKept(l: Segment, s: real)
    requires 0.0 <= s <= 1.0
    requires 0.0 <= PointX(l, s) <= ViewWidth as real && 0.0 <= PointY(l, s) <= ViewHeight as real
    ensures EdgeVisible(l)
  {
    if OffX(l.x1) && OffY(l.y1) && OffX(l.x2) && OffY(l.y2) {
      EntryFacts(l.x1, l.x2, 0, ViewWidth, s, s);
      EntryFacts(l.y1, l.y2, 0, ViewHeight, s, s);
      var sx := EntryParam(l.x1, l.x2, 0, ViewWidth);
      var sy := EntryParam(l.y1, l.y2, 0, ViewHeight);
      if sy <= sx {
        CrossesSide(l, s);
      } else {
        CrossesTopOrBottom(l, s);
      }
    }
  }

  /** When the x coordinate enters the viewport last, the segment crosses
      the left or the right border there. */
  lemma CrossesSide(l: Segment, s: real)
    requires 0.0 <= s <= 1.0
    requires 0.0 <= PointX(l, s) <= ViewWidth as real && 0.0 <= PointY(l, s) <= ViewHeight as real
    requires OffX(l.x1) && OffY(l.y1) && l.x1 != l.x2 && l.y1 != l.y2
    requires EntryParam(l.y1, l.y2, 0, ViewHeight) <= EntryParam(l.x1, l.x2, 0, ViewWidth)
    ensures DoLinesIntersect(l, LeftBorder) || DoLinesIntersect(l, RightBorder)
  {
    var sx := EntryParam(l.x1, l.x2, 0, ViewWidth);
    SideEntry(l, s);
    if l.x1 < 0 {
      CrossesVertical(l, 0, sx);
    } else {
      CrossesVertical(l, ViewWidth, sx);
    }
  }

  /** Where the x coordinate enters last, the point is on a side border. */
  lemma SideEntry(l: Segment, s: real)
    requires 0.0 <= s <= 1.0
    requires 0.0 <= PointX(l, s) <= ViewWidth as real && 0.0 <= PointY(l, s) <= ViewHeight as real
    requires OffX(l.x1) && OffY(l.y1) && l.x1 != l.x2 && l.y1 != l.y2
    requires EntryParam(l.y1, l.y2, 0, ViewHeight) <= EntryParam(l.x1, l.x2, 0, ViewWidth)
    ensures var sx := EntryParam(l.x1, l.x2, 0, ViewWidth);
            && 0.0 <= sx <= 1.0
            && PointX(l, sx) == (if l.x1 < 0 then 0 else ViewWidth) as real
            && 0.0 <= PointY(l, sx) <= ViewHeight as real
  {
    var sx := EntryParam(l.x1, l.x2, 0, ViewWidth);
    EntryFacts(l.x1, l.x2, 0, ViewWidth, s, sx);
    EntryFacts(l.y1, l.y2, 0, ViewHeight, s, sx);
  }

  /** When the y coordinate enters the viewport last, the segment crosses
      the top or the bottom border there. */
  lemma CrossesTopOrBottom(l: Segment, s: real)
    requires 0.0 <= s <= 1.0
    requires 0.0 <= PointX(l, s) <= ViewWidth as real && 0.0 <= PointY(l, s) <= ViewHeight as real
    requires OffX(l.x1) && OffY(l.y1) && l.x1 != l.x2 && l.y1 != l.y2
    requires EntryParam(l.x1, l.x2, 0, ViewWidth) <= EntryParam(l.y1, l.y2, 0, ViewHeight)
    ensures DoLinesIntersect(l, TopBorder) || DoLinesIntersect(l, BottomBorder)
  {
    var sy := EntryParam(l.y1, l.y2, 0, ViewHeight);
    TopOrBottomEntry(l, s);
    if l.y1 < 0 {
      CrossesHorizontal(l, 0, sy);
    } else {
      CrossesHorizontal(l, ViewHeight, sy);
    }
  }

  /** Where the y coordinate enters last, the point is on the top or the
      bottom border. */
  lemma TopOrBottomEntry(l: Segment, s: real)
    requires 0.0 <= s <= 1.0
    requires 0.0 <= PointX(l, s) <= ViewWidth as real && 0.0 <= PointY(l, s) <= ViewHeight as real
    requires OffX(l.x1) && OffY(l.y1) && l.x1 != l.x2 && l.y1 != l.y2
    requires EntryParam(l.x1, l.x2, 0, ViewWidth) <= EntryParam(l.y1, l.y2, 0, ViewHeight)
    ensures var sy := EntryParam(l.y1, l.y2, 0, ViewHeight);
            && 0.0 <= sy <= 1.0
            && PointY(l, sy) == (if l.y1 < 0 then 0 else ViewHeight) as real
            && 0.0 <= PointX(l, sy) <= ViewWidth as real
  {
    var sy := EntryParam(l.y1, l.y2, 0, ViewHeight);
    EntryFacts(l.x1, l.x2, 0, ViewWidth, s, sy);
    EntryFacts(l.y1, l.y2, 0, ViewHeight, s, sy);
  }

  /** A non-vertical segment reaching the vertical line x = bx at a height
      within the viewport crosses that border of the viewport. */
  lemma CrossesVertical(l: Segment, bx: int, t: real)
    requires l.x1 != l.x2 && 0.0 <= t <= 1.0
    requires PointX(l, t) == bx as real && 0.0 <= PointY(l, t) <= ViewHeight as real
    ensures DoLinesIntersect(l, Segment(bx, 0, bx, ViewHeight))
  {
    var border := Segment(bx, 0, bx, ViewHeight);
    var u := PointY(l, t) / ViewHeight as real;
    DivideBack(PointY(l, t), ViewHeight as real);
    assert Denominator(l, border) == (l.x2 - l.x1) * ViewHeight;
    assert PointY(border, u) == u * ViewHeight as real;
    IntersectComplete(l, border, t, u);
  }

  /** A non-horizontal segment reaching the horizontal line y = by at a
      position within the viewport crosses that border of the viewport. */
  lemma CrossesHorizontal(l: Segment, by': int, t: real)
    requires l.y1 != l.y2 && 0.0 <= t <= 1.0
    requires PointY(l, t) == by' as real && 0.0 <= PointX(l, t) <= ViewWidth as real
    ensures DoLinesIntersect(l, Segment(0, by', ViewWidth, by'))
  {
    var border := Segment(0, by', ViewWidth, by');
    var u := PointX(l, t) / ViewWidth as real;
    DivideBack(PointX(l, t), ViewWidth as real);
    assert Denominator(l, border) == -(l.y2 - l.y1) * ViewWidth;
    assert PointX(border, u) == u * ViewWidth as real;
    IntersectComplete(l, border, t, u);
  }
}

=== FILE: java_math.dfy ===
/** The pieces of Java arithmetic the model needs written out explicitly:
    32-bit wrap-around of an `(int)` cast, truncation of a `(long)` cast of a
    double, the double value of `Math.PI`, and `Math.sin`/`Math.cos` as
    parameters constrained only by the bounds the model relies on. */
module JavaMath {

  const TwoTo31: int := 0x8000_0000
  const TwoTo32: int := 0x1_0000_0000

  /** An `int` narrowing conversion (or an overflowing `int` subtraction):
      the unique value in the 32-bit range congruent to `v`. */
  function Int32(v: int): (r: int)
    ensures -TwoTo31 <= r < TwoTo31
    ensures (v - r) % TwoTo32 == 0
    ensures -TwoTo31 <= v < TwoTo31 ==> r == v
  {
    (v + TwoTo31) % TwoTo32 - TwoTo31
  }

  /** A `(long)` cast of a double: rounds toward zero. Saturation at the
      64-bit bounds is not modelled. */
  function Trunc(r: real): (n: int)
    ensures r >= 0.0 ==> n >= 0 && n as real <= r < n as real + 1.0
    ensures r < 0.0 ==> n <= 0 && n as real - 1.0 < r <= n as real
  {
    if r >= 0.0 then r.Floor else -((-r).Floor)
  }

  /** The double closest to pi, as `Math.PI` holds it. */
  const Pi: real := 3.141592653589793

  /** `Math.sin` and `Math.cos`, supplied by the caller. */
  datatype Trig = Trig(sin: real -> real, cos: real -> real)

  /** What the model assumes of `Math.sin` and `Math.cos`: both lie in
      [-1, 1], sine is non-negative on [0, Pi], and the two exact values
      `Math.cos(0) == 1` and `Math.cos(Math.PI) == -1`. */
  ghost predicate ValidTrig(tr: Trig) {
    && (forall a :: -1.0 <= tr.sin(a) <= 1.0)
    && (forall a :: -1.0 <= tr.cos(a) <= 1.0)
    && (forall a :: 0.0 <= a <= Pi ==> 0.0 <= tr.sin(a))
    && tr.cos(0.0) == 1.0
    && tr.cos(Pi) == -1.0
  }
}

=== FILE: layout.dfy ===
/** The radial layout of `drawNode`, as a pure function producing the list
    of drawing commands one frame issues, in the order it issues them.

    Each node gets a circle whose radius is the primary radius scaled by the
    node's size percent and by the zoom. The circle is culled against the
    viewport; a label is added only for a drawn circle of radius at least 10,
    and the children are laid out only when the radius is at least 2. The
    children share the full turn in equal angular slots (one extra slot for
    the edge to the parent of a non-root node), capped at half a turn, and
    shrink by a factor of at most 0.64 per level, so the recursion ends even
    when the child relation has cycles. */
module Layout {
  import opened JavaMath
  import opened Geometry
  import opened TreeModel
  import opened RealArith

  const PrimaryNodeRadius: int := 50
  const PrimaryNodeDistance: int := 200
  const MinimumRadiusText: int := 10
  const MinimumRadiusDraw: int := 2
  const ShrinkFactor: real := 0.32

  /** One drawing command, tagged with the depth of the node that issued it
      (an edge carries the depth of its parent end). */
  datatype Cmd =
    | Oval(x: int, y: int, radius: int, node: NodeId, depth: nat)
    | Label(x: int, y: int, radius: int, node: NodeId, depth: nat)
    | Line(seg: Segment, depth: nat)

  /** What one frame draws with: the tree, `Math.sin`/`Math.cos`, the zoom. */
  datatype Scene<T> = Scene(tree: Tree<T>, trig: Trig, zoom: real)

  ghost predicate SceneOk<T>(sc: Scene<T>) {
    Valid(sc.tree) && ValidTrig(sc.trig) && sc.zoom > 0.0
  }

  /** The hue of a node's fill and outline colours: one of seven, by depth. */
  function Hue(depth: nat): (h: real)
    ensures 0.0 <= h < 1.0
    ensures (h * 7.0).Floor == depth % 7
  {
    (depth % 7) as real / 7.0
  }

  /** Colours repeat every seven levels, and neighbouring levels differ. */
  lemma HueCycles(depth: nat)
    ensures Hue(depth + 7) == Hue(depth)
    ensures Hue(depth + 1) != Hue(depth)
  {
    assert (depth + 7) % 7 == depth % 7;
    assert (depth + 1) % 7 != depth % 7;
  }

  /** The unrounded radius of a node of the given size percent. */
  function RadiusReal(sp: real, zoom: real): real {
    PrimaryNodeRadius as real * sp * zoom
  }

  /** The radius `drawNode` computes: the `(long)` cast of `RadiusReal`. */
  function Radius(sp: real, zoom: real): (r: int)
    requires sp >= 0.0 && zoom > 0.0
    ensures r >= 0
  {
    NonNegativeProduct(sp, zoom);
    Trunc(RadiusReal(sp, zoom))
  }

  lemma NonNegativeProduct(a: real, b: real)
    requires a >= 0.0 && b >= 0.0
    ensures a * b >= 0.0 && PrimaryNodeRadius as real * a * b >= 0.0
  {
  }

  /** A measure that bounds how many more levels can be drawn below a node
      of the given size percent: twice its unrounded radius, rounded down. */
  function Budget(sp: real, zoom: real): nat
    requires sp >= 0.0 && zoom > 0.0
  {
    NonNegativeProduct(sp, zoom);
    (2.0 * RadiusReal(sp, zoom)).Floor
  }

  /** Number of angular slots around a node: one per child, plus one for
      the edge to the parent unless the node is the root. */
  function SlotCount(children: nat, isRoot: bool): (r: nat)
    ensures children <= r <= children + 1
    ensures r == children <==> isRoot
  {
    children + (if isRoot then 0 else 1)
  }

  /** The angle between consecutive children: the full turn divided evenly
      over the slots, capped at half a turn. */
  function ChildAngle(slots: nat): (a: real)
    requires slots >= 1
    ensures 0.0 < a <= Pi
    ensures a * slots as real <= 2.0 * Pi
    ensures slots >= 2 ==> a * slots as real == 2.0 * Pi
    ensures slots == 1 ==> a == Pi
  {
    var a := (2.0 * Pi) / slots as real;
    if a > Pi then Pi else a
  }

  /** The size percent of a child: the chord between neighbouring slots
      at the primary distance, scaled by 0.32, relative to that distance. */
  function ChildSizePercent(tr: Trig, angle: real, sp: real): (c: real)
    requires ValidTrig(tr) && 0.0 < angle <= Pi && sp >= 0.0
    ensures 0.0 <= c <= 0.64 * sp
  {
    var v := tr.sin(angle / 2.0);
    var sideLength := 2.0 * PrimaryNodeDistance as real * v;
    var newDistance := sideLength * ShrinkFactor;
    var c := (newDistance / PrimaryNodeDistance as real) * sp;
    ShrinkBound(v, sp, c);
    c
  }

  /** The child size percent for a chord factor `v` in [0, 1] is `0.64 v`
      of the parent's. */
  lemma ShrinkBound(v: real, sp: real, c: real)
    requires 0.0 <= v <= 1.0 && sp >= 0.0
    requires c == (2.0 * PrimaryNodeDistance as real * v * ShrinkFactor / PrimaryNodeDistance as real) * sp
    ensures 0.0 <= c <= 0.64 * sp
  {
    assert 2.0 * PrimaryNodeDistance as real * v * ShrinkFactor / PrimaryNodeDistance as real == 0.64 * v;
    assert v * sp <= sp by { assert (1.0 - v) * sp >= 0.0; }
    ProductNonNegative(v, sp);
  }

  /** Every child level drops the budget by at least one, because a node
      with children has radius at least 2 and a child is at most 0.64 of
      its parent's size. */
  lemma BudgetShrinks(sp: real, childSp: real, zoom: real)
    requires sp >= 0.0 && zoom > 0.0 && 0.0 <= childSp <= 0.64 * sp
    requires Radius(sp, zoom) >= MinimumRadiusDraw
    ensures Budget(childSp, zoom) < Budget(sp, zoom)
  {
    var r, rc := RadiusReal(sp, zoom), RadiusReal(childSp, zoom);
    assert r >= 2.0;
    assert rc <= 0.64 * r by {
      assert childSp * zoom <= 0.64 * sp * zoom by {
        assert (0.64 * sp - childSp) * zoom >= 0.0;
      }
    }
    assert 2.0 * rc <= 2.0 * r - 1.44;
  }

  /** The per-node quantities `drawNode` computes once and then uses for
      every child: the node's centre, depth, size percent, its own angle
      from its parent, its radius, the slot angle, the child size percent
      and the edge length. */
  datatype Fan = Fan(x: int, y: int, depth: nat, sp: real, angle: real, radius: int,
                     step: real, childSp: real, edge: int)

  ghost predicate FanOk<T>(sc: Scene<T>, f: Fan) {
    && SceneOk(sc)
    && f.sp >= 0.0
    && f.radius == Radius(f.sp, sc.zoom)
    && f.radius >= MinimumRadiusDraw
    && 0.0 <= f.childSp <= 0.64 * f.sp
  }

  /** Each command on its own obeys the culling rules: drawn circles and
      labels are on screen, labels are big enough, edges are on screen. */
  predicate CmdCulled(c: Cmd) {
    match c
    case Oval(x, y, r, _, _) => r >= 0 && CircleVisible(x, y, r)
    case Label(x, y, r, _, _) => r >= MinimumRadiusText && CircleVisible(x, y, r)
    case Line(seg, _) => EdgeVisible(seg)
  }

  /** A label comes right after the circle of the same node. */
  predicate LabelsFollowOvals(cmds: seq<Cmd>) {
    forall k :: 0 <= k < |cmds| && cmds[k].Label? ==>
      0 < k && cmds[k - 1] == Oval(cmds[k].x, cmds[k].y, cmds[k].radius, cmds[k].node, cmds[k].depth)
  }

  predicate Culled(cmds: seq<Cmd>) {
    (forall k :: 0 <= k < |cmds| ==> CmdCulled(cmds[k])) && LabelsFollowOvals(cmds)
  }

  lemma CulledConcat(a: seq<Cmd>, b: seq<Cmd>)
    requires Culled(a) && Culled(b)
    ensures Culled(a + b)
  {
    var ab := a + b;
    forall k | 0 <= k < |ab| && ab[k].Label?
      ensures 0 < k && ab[k - 1] == Oval(ab[k].x, ab[k].y, ab[k].radius, ab[k].node, ab[k].depth)
    {
      if k < |a| {
        assert ab[k] == a[k] && ab[k - 1] == a[k - 1];
      } else {
        assert ab[k] == b[k - |a|] && ab[k - 1] == b[k - |a| - 1];
      }
    }
  }

  /** Every command comes from a node at depth in [lo, hi]. */
  predicate DepthsIn(cmds: seq<Cmd>, lo: nat, hi: nat) {
    forall k :: 0 <= k < |cmds| ==> lo <= cmds[k].depth <= hi
  }

  /** Every circle comes from a node deeper than d. */
  predicate OvalsBelow(cmds: seq<Cmd>, d: nat) {
    forall k :: 0 <= k < |cmds| && cmds[k].Oval? ==> cmds[k].depth > d
  }

  /** No circle has a radius above the given bound. */
  predicate RadiiAtMost(cmds: seq<Cmd>, bound: real) {
    forall k :: 0 <= k < |cmds| && cmds[k].Oval? ==> cmds[k].radius as real <= bound
  }

  lemma RadiiConcat(a: seq<Cmd>, b: seq<Cmd>, bound: real)
    requires RadiiAtMost(a, bound) && RadiiAtMost(b, bound)
    ensures RadiiAtMost(a + b, bound)
  {
  }

  /** A child's circles are no larger than the bound for its parent. */
  lemma RadiiWeaken(cmds: seq<Cmd>, childSp: real, sp: real, zoom: real)
    requires 0.0 <= childSp <= sp && zoom > 0.0
    requires RadiiAtMost(cmds, RadiusReal(childSp, zoom))
    ensures RadiiAtMost(cmds, RadiusReal(sp, zoom))
  {
    assert RadiusReal(childSp, zoom) <= RadiusReal(sp, zoom) by {
      assert (sp - childSp) * zoom >= 0.0;
    }
  }

  lemma DepthsConcat(a: seq<Cmd>, b: seq<Cmd>, lo: nat, hi: nat)
    requires DepthsIn(a, lo, hi) && DepthsIn(b, lo, hi)
    ensures DepthsIn(a + b, lo, hi)
  {
  }

  lemma OvalsBelowConcat(a: seq<Cmd>, b: seq<Cmd>, d: nat)
    requires OvalsBelow(a, d) && OvalsBelow(b, d)
    ensures OvalsBelow(a + b, d)
  {
  }

  /** The commands for the node itself: its circle when visible, then its
      label when requested. */
  lemma HeadFacts(x: int, y: int, radius: int, n: NodeId, depth: nat, visible: bool, labelled: bool)
    requires radius >= 0 && visible == CircleVisible(x, y, radius)
    requires labelled ==> visible && radius >= MinimumRadiusText
    ensures var h := (if visible then [Oval(x, y, radius, n, depth)] else [])
                     + (if labelled then [Label(x, y, radius, n, depth)] else []);
            && Culled(h)
            && DepthsIn(h, depth, depth)
            && (|h| == 0 || OvalsBelow(h[1..], depth))
            && (|h| > 0 && h[0] == Oval(x, y, radius, n, depth) <==> visible)
  {
  }

  /** `drawNode`: the node's circle if it is on screen, then, unless the
      radius is below 2, its label if the circle was drawn and its radius is
      at least 10, then for each child its edge (if on screen) followed by
      the child's own drawing. */
  function DrawNode<T>(sc: Scene<T>, x: int, y: int, n: NodeId, depth: nat,
                       sp: real, angle: real, isRoot: bool): (r: seq<Cmd>)
    requires SceneOk(sc) && n in sc.tree.nodes && sp >= 0.0
    ensures Culled(r)
    ensures DepthsIn(r, depth, depth + Budget(sp, sc.zoom))
    ensures |r| == 0 || OvalsBelow(r[1..], depth)
    ensures (|r| > 0 && r[0] == Oval(x, y, Radius(sp, sc.zoom), n, depth))
            <==> CircleVisible(x, y, Radius(sp, sc.zoom))
    ensures Radius(sp, sc.zoom) < MinimumRadiusDraw ==> |r| <= 1
    ensures RadiiAtMost(r, RadiusReal(sp, sc.zoom))
    decreases Budget(sp, sc.zoom), 1, 0
  {
    var radius := Radius(sp, sc.zoom);
    var visible := CircleVisible(x, y, radius);
    var own := if visible then [Oval(x, y, radius, n, depth)] else [];
    if radius < MinimumRadiusDraw then
      HeadThenRest(x, y, radius, n, depth, visible, false, [], depth + Budget(sp, sc.zoom), RadiusReal(sp, sc.zoom));
      own
    else
      var labelled := radius >= MinimumRadiusText && visible;
      var head := own + (if labelled then [Label(x, y, radius, n, depth)] else []);
      var rest := DrawFan(sc, x, y, n, depth, sp, angle, isRoot);
      HeadThenRest(x, y, radius, n, depth, visible, labelled, rest, depth + Budget(sp, sc.zoom), RadiusReal(sp, sc.zoom));
      head + rest
  }

  /** What `DrawNode` promises, for the node's circle and label followed by
      commands of deeper nodes. */
  lemma HeadThenRest(x: int, y: int, radius: int, n: NodeId, depth: nat, visible: bool, labelled: bool,
                     rest: seq<Cmd>, hi: nat, bound: real)
    requires radius >= 0 && visible == CircleVisible(x, y, radius)
    requires labelled ==> visible && radius >= MinimumRadiusText
    requires depth <= hi && radius as real <= bound
    requires Culled(rest) && DepthsIn(rest, depth, hi) && OvalsBelow(rest, depth) && RadiiAtMost(rest, bound)
    ensures var r := (if visible then [Oval(x, y, radius, n, depth)] else [])
                     + (if labelled then [Label(x, y, radius, n, depth)] else []) + rest;
            && Culled(r)
            && DepthsIn(r, depth, hi)
            && (|r| == 0 || OvalsBelow(r[1..], depth))
            && (|r| > 0 && r[0] == Oval(x, y, radius, n, depth) <==> visible)
            && RadiiAtMost(r, bound)
  {
    var head := (if visible then [Oval(x, y, radius, n, depth)] else [])
                + (if labelled then [Label(x, y, radius, n, depth)] else []);
    HeadFacts(x, y, radius, n, depth, visible, labelled);
    CulledConcat(head, rest);
    DepthsConcat(head, rest, depth, hi);
    RadiiConcat(head, rest, bound);
    if |head| == 0 {
      assert head + rest == rest;
    } else {
      assert (head + rest)[1..] == head[1..] + rest;
      OvalsBelowConcat(head[1..], rest, depth);
    }
  }

  /** A node's label is issued, right after its circle, exactly when the
      circle is drawn and its radius is at least 10. */
  lemma LabelIffDrawnAndBig<T>(sc: Scene<T>, x: int, y: int, n: NodeId, depth: nat,
                               sp: real, angle: real, isRoot: bool)
    requires SceneOk(sc) && n in sc.tree.nodes && sp >= 0.0
    ensures var r := DrawNode(sc, x, y, n, depth, sp, angle, isRoot);
            var radius := Radius(sp, sc.zoom);
            (|r| >= 2 && r[1] == Label(x, y, radius, n, depth))
            <==> (CircleVisible(x, y, radius) && radius >= MinimumRadiusText)
  {
    var radius := Radius(sp, sc.zoom);
    if radius >= MinimumRadiusDraw {
      var visible := CircleVisible(x, y, radius);
      var labelled := radius >= MinimumRadiusText && visible;
      var fan := DrawFan(sc, x, y, n, depth, sp, angle, isRoot);
      assert DrawNode(sc, x, y, n, depth, sp, angle, isRoot)
             == (if visible then [Oval(x, y, radius, n, depth)] else [])
                + (if labelled then [Label(x, y, radius, n, depth)] else []) + fan;
      LabelSecond(x, y, radius, n, depth, visible, labelled, fan);
    }
  }

  /** In the commands of a node followed by those of deeper nodes, the
      second command is this node's label exactly when a label was issued. */
  lemma LabelSecond(x: int, y: int, radius: int, n: NodeId, depth: nat, visible: bool, labelled: bool,
                    rest: seq<Cmd>)
    requires labelled ==> visible
    requires LabelsFollowOvals(rest) && OvalsBelow(rest, depth)
    ensures var r := (if visible then [Oval(x, y, radius, n, depth)] else [])
                     + (if labelled then [Label(x, y, radius, n, depth)] else []) + rest;
            (|r| >= 2 && r[1] == Label(x, y, radius, n, depth)) <==> labelled
  {
    var r := (if visible then [Oval(x, y, radius, n, depth)] else [])
             + (if labelled then [Label(x, y, radius, n, depth)] else []) + rest;
    if !labelled && visible && |rest| > 0 {
      assert r[1] == rest[0];
    } else if !visible && |rest| >= 2 && rest[1].Label? {
      assert r == rest;
      assert rest[0].depth == rest[1].depth > depth;
    }
  }

  /** A node whose circle is culled still lays out its children, as long
      as its radius is at least 2: culling skips the circle, not the
      subtree. */
  lemma CulledNodeKeepsChildren<T>(sc: Scene<T>, x: int, y: int, n: NodeId, depth: nat,
                                   sp: real, angle: real, isRoot: bool)
    requires SceneOk(sc) && n in sc.tree.nodes && sp >= 0.0
    requires !CircleVisible(x, y, Radius(sp, sc.zoom)) && Radius(sp, sc.zoom) >= MinimumRadiusDraw
    ensures DrawNode(sc, x, y, n, depth, sp, angle, isRoot) == DrawFan(sc, x, y, n, depth, sp, angle, isRoot)
  {
  }

  /** The children of a node whose radius is at least 2, with the slot
      angle, the child size and the edge length `drawNode` computes once
      for all of them. */
  function DrawFan<T>(sc: Scene<T>, x: int, y: int, n: NodeId, depth: nat,
                      sp: real, angle: real, isRoot: bool): (r: seq<Cmd>)
    requires SceneOk(sc) && n in sc.tree.nodes && sp >= 0.0
    requires Radius(sp, sc.zoom) >= MinimumRadiusDraw
    ensures Culled(r)
    ensures DepthsIn(r, depth, depth + Budget(sp, sc.zoom))
    ensures OvalsBelow(r, depth)
    ensures RadiiAtMost(r, RadiusReal(sp, sc.zoom))
    decreases Budget(sp, sc.zoom), 0, |sc.tree.nodes[n].children| + 1
  {
    var children := sc.tree.nodes[n].children;
    if |children| == 0 then []
    else DrawChildren(sc, FanOf(sc, x, y, depth, sp, angle, |children|, isRoot), children, 0)
  }

  /** What `drawNode` computes once for all children of a node with the
      given number of children: the slot angle, the child size percent, and
      the edge length, the primary distance less both radii. */
  function FanOf<T>(sc: Scene<T>, x: int, y: int, depth: nat, sp: real, angle: real,
                    children: nat, isRoot: bool): (f: Fan)
    requires SceneOk(sc) && sp >= 0.0 && children > 0
    requires Radius(sp, sc.zoom) >= MinimumRadiusDraw
    ensures FanOk(sc, f)
    ensures f.x == x && f.y == y && f.depth == depth && f.sp == sp && f.angle == angle
    ensures f.step == ChildAngle(SlotCount(children, isRoot))
    ensures f.childSp == ChildSizePercent(sc.trig, f.step, sp)
  {
    var radius := Radius(sp, sc.zoom);
    var step := ChildAngle(SlotCount(children, isRoot));
    var childSp := ChildSizePercent(sc.trig, step, sp);
    var childRadius := Radius(childSp, sc.zoom);
    var edge := Trunc(PrimaryNodeDistance as real * sp * sc.zoom - (radius + childRadius) as real);
    Fan(x, y, depth, sp, angle, radius, step, childSp, edge)
  }

  /** The commands for one child, between its edge and those for the
      children after it, keep the facts `DrawChildren` promises. */
  lemma JoinBlock(edge: seq<Cmd>, child: seq<Cmd>, rest: seq<Cmd>, depth: nat, hi: nat, bound: real)
    requires ChildEdge(edge, depth) && Culled(edge) && depth <= hi
    requires Culled(child) && DepthsIn(child, depth + 1, hi) && RadiiAtMost(child, bound)
    requires Culled(rest) && DepthsIn(rest, depth, hi) && OvalsBelow(rest, depth) && RadiiAtMost(rest, bound)
    ensures var r := edge + child + rest;
            Culled(r) && DepthsIn(r, depth, hi) && OvalsBelow(r, depth) && RadiiAtMost(r, bound)
  {
    CulledConcat(edge, child);
    CulledConcat(edge + child, rest);
    DepthsConcat(edge, child, depth, hi);
    DepthsConcat(edge + child, rest, depth, hi);
    OvalsBelowConcat(edge, child, depth);
    OvalsBelowConcat(edge + child, rest, depth);
    RadiiConcat(edge, child, bound);
    RadiiConcat(edge + child, rest, bound);
  }

  /** At most the edge to one child, at the parent's depth. */
  predicate ChildEdge(edge: seq<Cmd>, depth: nat) {
    edge == [] || (|edge| == 1 && edge[0].Line? && edge[0].depth == depth)
  }

  /** How far from its parent's centre a child's centre can be: the
      primary distance scaled by the parent's size and the zoom. */
  function ChildReach(sp: real, zoom: real): real {
    PrimaryNodeDistance as real * sp * zoom
  }

  predicate Within(v: int, centre: int, reach: real) {
    -reach <= (v - centre) as real <= reach
  }

  /** A child's coordinate along one axis, its parent's plus the truncated
      product of the reach and a sine or cosine, is within the reach. */
  lemma OffsetWithin(sp: real, c: real, zoom: real, centre: int, v: int)
    requires sp >= 0.0 && zoom > 0.0 && -1.0 <= c <= 1.0
    requires v == Trunc(PrimaryNodeDistance as real * sp * c * zoom) + centre
    ensures Within(v, centre, ChildReach(sp, zoom))
  {
    var m := PrimaryNodeDistance as real * sp;
    var p := m * c * zoom;
    assert ChildReach(sp, zoom) == m * zoom;
    assert p == (m * zoom) * c;
    ProductNonNegative(m, zoom);
    assert p <= m * zoom by { ProductNonNegative(m * zoom, 1.0 - c); }
    assert p >= -(m * zoom) by { ProductNonNegative(m * zoom, 1.0 + c); }
    var d := Trunc(p);
    assert -(m * zoom) <= d as real <= m * zoom;
    assert v - centre == d;
  }

  /** The direction of child `i` (counting from 0) as seen from its
      parent: one slot further round for each child, from the parent's
      own angle. */
  function ChildDirection(f: Fan, i: nat): real {
    f.step * (i + 1) as real + f.angle
  }

  /** The centre of child `i`: the primary distance, scaled by the
      parent's size and the zoom, in the child's direction. */
  function ChildCentre<T>(sc: Scene<T>, f: Fan, i: nat): (p: (int, int))
    requires SceneOk(sc) && f.sp >= 0.0
    ensures Within(p.0, f.x, ChildReach(f.sp, sc.zoom)) && Within(p.1, f.y, ChildReach(f.sp, sc.zoom))
  {
    var a := ChildDirection(f, i);
    var cos, sin := sc.trig.cos(a), sc.trig.sin(a);
    var nx := Trunc(PrimaryNodeDistance as real * f.sp * cos * sc.zoom) + f.x;
    var ny := Trunc(PrimaryNodeDistance as real * f.sp * sin * sc.zoom) + f.y;
    OffsetWithin(f.sp, cos, sc.zoom, f.x, nx);
    OffsetWithin(f.sp, sin, sc.zoom, f.y, ny);
    (nx, ny)
  }

  /** The edge to child `i`, from the rim of the parent's circle to the
      rim of the child's, issued only when it is on screen. */
  function EdgeTo<T>(sc: Scene<T>, f: Fan, i: nat): (r: seq<Cmd>)
    ensures ChildEdge(r, f.depth) && Culled(r)
  {
    var a := ChildDirection(f, i);
    var cos, sin := sc.trig.cos(a), sc.trig.sin(a);
    var seg := Segment(Trunc(f.radius as real * cos) + f.x, Trunc(f.radius as real * sin) + f.y,
                       Trunc((f.radius + f.edge) as real * cos) + f.x,
                       Trunc((f.radius + f.edge) as real * sin) + f.y);
    if EdgeVisible(seg) then [Line(seg, f.depth)] else []
  }

  /** The loop over the children of a node, from child `i` on: the edge to
      child `i` (when on screen), child `i`'s whole drawing, then the
      children after it. */
  function DrawChildren<T>(sc: Scene<T>, f: Fan, children: seq<NodeId>, i: nat): (r: seq<Cmd>)
    requires FanOk(sc, f) && i <= |children|
    requires forall j :: 0 <= j < |children| ==> children[j] in sc.tree.nodes
    ensures Culled(r)
    ensures DepthsIn(r, f.depth, f.depth + Budget(f.sp, sc.zoom))
    ensures OvalsBelow(r, f.depth)
    ensures RadiiAtMost(r, RadiusReal(f.sp, sc.zoom))
    decreases Budget(f.sp, sc.zoom), 0, |children| - i
  {
    if i == |children| then []
    else
      var centre := ChildCentre(sc, f, i);
      BudgetShrinks(f.sp, f.childSp, sc.zoom);
      var edge := EdgeTo(sc, f, i);
      var child := DrawNode(sc, centre.0, centre.1, children[i], f.depth + 1, f.childSp, ChildDirection(f, i) + Pi, false);
      var rest := DrawChildren(sc, f, children, i + 1);
      RadiiWeaken(child, f.childSp, f.sp, sc.zoom);
      JoinBlock(edge, child, rest, f.depth, f.depth + Budget(f.sp, sc.zoom), RadiusReal(f.sp, sc.zoom));
      edge + child + rest
  }

  /** The loop draws child `i` before the children after it: first the
      edge to it (when on screen), then the child's whole drawing, at a
      centre within the reach of its parent's and in the child's
      direction, then the later children. */
  lemma ChildrenInOrder<T>(sc: Scene<T>, f: Fan, children: seq<NodeId>, i: nat)
    requires FanOk(sc, f) && i < |children|
    requires forall j :: 0 <= j < |children| ==> children[j] in sc.tree.nodes
    ensures Budget(f.childSp, sc.zoom) < Budget(f.sp, sc.zoom)
    ensures exists edge: seq<Cmd>, nx: int, ny: int ::
              && ChildEdge(edge, f.depth)
              && Within(nx, f.x, ChildReach(f.sp, sc.zoom)) && Within(ny, f.y, ChildReach(f.sp, sc.zoom))
              && DrawChildren(sc, f, children, i)
                 == edge + DrawNode(sc, nx, ny, children[i], f.depth + 1, f.childSp, ChildDirection(f, i) + Pi, false)
                    + DrawChildren(sc, f, children, i + 1)
  {
    BudgetShrinks(f.sp, f.childSp, sc.zoom);
    ChildrenUnfold(sc, f, children, i);
  }

  /** One turn of the loop, with the edge and the centre of child `i`
      named. */
  lemma ChildrenUnfold<T>(sc: Scene<T>, f: Fan, children: seq<NodeId>, i: nat)
    requires FanOk(sc, f) && i < |children|
    requires forall j :: 0 <= j < |children| ==> children[j] in sc.tree.nodes
    requires Budget(f.childSp, sc.zoom) < Budget(f.sp, sc.zoom)
    ensures var centre := ChildCentre(sc, f, i);
            DrawChildren(sc, f, children, i)
            == EdgeTo(sc, f, i) + DrawNode(sc, centre.0, centre.1, children[i], f.depth + 1, f.childSp, ChildDirection(f, i) + Pi, false)
               + DrawChildren(sc, f, children, i + 1)
  {
    var centre := ChildCentre(sc, f, i);
    var child := DrawNode(sc, centre.0, centre.1, children[i], f.depth + 1, f.childSp, ChildDirection(f, i) + Pi, false);
    var rest := DrawChildren(sc, f, children, i + 1);
    assert DrawChildren(sc, f, children, i) == EdgeTo(sc, f, i) + child + rest;
  }

  /** From radius 2 on, a node's drawing is its own circle and label
      (those that are issued) followed by the drawing of its children. */
  lemma NodeThenFan<T>(sc: Scene<T>, x: int, y: int, n: NodeId, depth: nat,
                       sp: real, angle: real, isRoot: bool)
    requires SceneOk(sc) && n in sc.tree.nodes && sp >= 0.0
    requires Radius(sp, sc.zoom) >= MinimumRadiusDraw
    ensures var r, fan := DrawNode(sc, x, y, n, depth, sp, angle, isRoot), DrawFan(sc, x, y, n, depth, sp, angle, isRoot);
            && |fan| <= |r| <= |fan| + 2
            && r[|r| - |fan|..] == fan
            && forall k :: 0 <= k < |r| - |fan| ==> !r[k].Line? && r[k].node == n && r[k].depth == depth
  {
    var radius := Radius(sp, sc.zoom);
    var visible := CircleVisible(x, y, radius);
    var labelled := radius >= MinimumRadiusText && visible;
    var head := (if visible then [Oval(x, y, radius, n, depth)] else [])
                + (if labelled then [Label(x, y, radius, n, depth)] else []);
    var fan := DrawFan(sc, x, y, n, depth, sp, angle, isRoot);
    assert DrawNode(sc, x, y, n, depth, sp, angle, isRoot) == head + fan;
    assert (head + fan)[|head|..] == fan;
  }

  /** A node without children lays out nothing below it; otherwise its
      children are laid out from the first, with the slot angle for its
      number of children and the child size that angle gives. */
  lemma FanLaysOutChildren<T>(sc: Scene<T>, x: int, y: int, n: NodeId, depth: nat,
                              sp: real, angle: real, isRoot: bool)
    requires SceneOk(sc) && n in sc.tree.nodes && sp >= 0.0
    requires Radius(sp, sc.zoom) >= MinimumRadiusDraw
    ensures var children := sc.tree.nodes[n].children;
            |children| == 0 ==> DrawFan(sc, x, y, n, depth, sp, angle, isRoot) == []
    ensures var children := sc.tree.nodes[n].children;
            |children| > 0 ==>
              var step := ChildAngle(SlotCount(|children|, isRoot));
              exists edgeLength: int ::
                var f := Fan(x, y, depth, sp, angle, Radius(sp, sc.zoom), step,
                             ChildSizePercent(sc.trig, step, sp), edgeLength);
                && FanOk(sc, f)
                && DrawFan(sc, x, y, n, depth, sp, angle, isRoot) == DrawChildren(sc, f, children, 0)
  {
    var children := sc.tree.nodes[n].children;
    if |children| > 0 {
      var f := FanOf(sc, x, y, depth, sp, angle, |children|, isRoot);
      assert DrawFan(sc, x, y, n, depth, sp, angle, isRoot) == DrawChildren(sc, f, children, 0);
      assert f == Fan(x, y, depth, sp, angle, Radius(sp, sc.zoom), f.step, f.childSp, f.edge);
    }
  }
}

=== FILE: real_arith.dfy ===
/** Small facts about multiplying and dividing reals that the solver does
    not find unaided; each is used by the geometry and easing proofs. */
module RealArith {
  lemma SquareMonotone(a: real, b: real)
    requires 0.0 <= a < b
    ensures a * a < b * b
  {
    calc {
      a * a;
    <= { ScaleNonNegative(a, b, a); }
      b * a;
    < { ScaleStrict(a, b, b); }
      b * b;
    }
  }

  lemma ScaleNonNegative(a: real, b: real, r: real)
    requires 0.0 <= r && a <= b
    ensures a * r <= b * r
  {
  }

  lemma ScaleStrict(a: real, b: real, r: real)
    requires 0.0 < r && a < b
    ensures a * r < b * r
  {
  }

  lemma SquareMonotoneWeak(a: real, b: real)
    requires 0.0 <= a <= b
    ensures a * a <= b * b
  {
    if a == 0.0 {
      assert 0.0 <= b * b;
    } else {
      ScaleUp(a, b, a);
      ScaleUp(a, b, b);
    }
  }

  lemma DivideBack(n: real, d: real)
    requires d != 0.0
    ensures (n / d) * d == n
  {
  }

  lemma CancelFactor(a: real, b: real, d: real)
    requires d != 0.0 && a * d == b * d
    ensures a == b
  {
    assert (a - b) * d == 0.0;
  }

  lemma ZeroFactor(s: real, r: real)
    ensures r == 0.0 ==> s * r == 0.0
  {
  }

  lemma PositiveFactor(s: real, r: real)
    requires 0.0 <= s && 0.0 < s * r
    ensures 0.0 < r
  {
  }

  lemma ScaleBack(a: real, b: real, r: real)
    requires 0.0 < r
    ensures a * r <= b * r ==> a <= b
  {
  }

  lemma ScaleUp(a: real, b: real, r: real)
    requires 0.0 < r && a <= b
    ensures a * r <= b * r
  {
  }

  lemma NegativeFactor(s: real, r: real)
    requires 0.0 <= s && s * r < 0.0
    ensures r < 0.0
  {
  }

  lemma ScaleBackNegative(a: real, b: real, r: real)
    requires r < 0.0
    ensures b * r <= a * r ==> a <= b
  {
  }

  lemma ScaleDown(a: real, b: real, r: real)
    requires r < 0.0 && a <= b
    ensures b * r <= a * r
  {
  }

  lemma ProductNonNegative(a: real, b: real)
    requires 0.0 <= a && 0.0 <= b
    ensures 0.0 <= a * b
  {
  }

  lemma ProductPositive(a: real, b: real)
    requires 0.0 < a && 0.0 < b
    ensures 0.0 < a * b
  {
  }
}

=== FILE: tree_controller.dfy ===
/** `TreeController`: the tree being shown, the zoom factor, and the list
    of circles recorded by the last draw, which the hit test searches. */
module TreeController {
  import opened Wrappers
  import opened JavaMath
  import opened Geometry
  import opened TreeModel
  import opened Layout

  datatype Controller<T> = Controller(tree: Tree<T>, zoom: real, drawn: seq<Circle>)

  /** A controller always has a positive zoom. */
  predicate ZoomOk<T>(c: Controller<T>) {
    c.zoom > 0.0
  }

  /** The constructor: zoom 1 and no circles recorded yet. */
  function NewController<T>(t: Tree<T>): (c: Controller<T>)
    ensures ZoomOk(c) && c.zoom == 1.0
    ensures c.tree == t && c.drawn == []
  {
    Controller(t, 1.0, [])
  }

  /** `setTree`: only the tree changes. */
  function SetTree<T>(c: Controller<T>, t: Tree<T>): (r: Controller<T>)
    ensures r.tree == t && r.zoom == c.zoom && r.drawn == c.drawn
  {
    c.(tree := t)
  }

  /** `getZoom`: the current zoom, which is positive for every controller
      the operations here produce. */
  function GetZoom<T>(c: Controller<T>): (z: real)
    ensures ZoomOk(c) ==> z > 0.0
    ensures SetZoom(c, z) == c
  {
    c.zoom
  }

  /** `setZoom`: a positive request is taken, any other is ignored. */
  function SetZoom<T>(c: Controller<T>, zoom: real): (r: Controller<T>)
    ensures zoom > 0.0 ==> r == c.(zoom := zoom)
    ensures zoom <= 0.0 ==> r == c
    ensures ZoomOk(c) ==> ZoomOk(r)
  {
    if zoom > 0.0 then c.(zoom := zoom) else c
  }

  /** The controller after a sequence of `setZoom` requests. */
  function SetZooms<T>(c: Controller<T>, zooms: seq<real>): Controller<T>
    decreases |zooms|
  {
    if |zooms| == 0 then c else SetZooms(SetZoom(c, zooms[0]), zooms[1..])
  }

  /** Whatever is asked of `setZoom`, the zoom stays positive. */
  lemma {:induction false} ZoomStaysPositive<T>(c: Controller<T>, zooms: seq<real>)
    requires ZoomOk(c)
    ensures ZoomOk(SetZooms(c, zooms))
    ensures SetZooms(c, zooms).tree == c.tree
    decreases |zooms|
  {
    if |zooms| > 0 {
      ZoomStaysPositive(SetZoom(c, zooms[0]), zooms[1..]);
    }
  }

  /** The `Circle` recorded for a drawn oval: each field `(int)`-cast. */
  function ToCircle(cmd: Cmd): Circle
    requires cmd.Oval?
  {
    Circle(Int32(cmd.x), Int32(cmd.y), Int32(cmd.radius))
  }

  /** The circles a pass records, one per oval, in drawing order. */
  function Recorded(cmds: seq<Cmd>): (cs: seq<Circle>)
    ensures |cs| <= |cmds|
    ensures forall k :: 0 <= k < |cmds| && cmds[k].Oval? ==> ToCircle(cmds[k]) in cs
  {
    if |cmds| == 0 then []
    else
      var rest := Recorded(cmds[1..]);
      assert forall k :: 1 <= k < |cmds| ==> cmds[k] == cmds[1..][k - 1];
      if cmds[0].Oval? then [ToCircle(cmds[0])] + rest else rest
  }

  /** Recording is done command by command: the circles of a longer pass
      are those of its first part followed by those of its second part. */
  lemma {:induction false} RecordedConcat(a: seq<Cmd>, b: seq<Cmd>)
    ensures Recorded(a + b) == Recorded(a) + Recorded(b)
    decreases |a|
  {
    if |a| == 0 {
      assert a + b == b;
    } else {
      var h := if a[0].Oval? then [ToCircle(a[0])] else [];
      assert (a + b)[0] == a[0] && (a + b)[1..] == a[1..] + b;
      assert Recorded(a + b) == h + Recorded(a[1..] + b);
      RecordedConcat(a[1..], b);
      assert Recorded(a) == h + Recorded(a[1..]);
    }
  }

  /** One command records one circle if it is an oval and none otherwise,
      so together with `RecordedConcat` the list holds one circle per oval,
      in the order the ovals were drawn. */
  lemma RecordedSingle(c: Cmd)
    ensures c.Oval? ==> Recorded([c]) == [ToCircle(c)]
    ensures !c.Oval? ==> Recorded([c]) == []
  {
    assert [c][1..] == [];
  }

  /** Every recorded circle comes from an oval of the pass: the index of
      that oval. */
  lemma {:induction false} RecordedSource(cmds: seq<Cmd>, j: nat) returns (k: nat)
    requires j < |Recorded(cmds)|
    ensures k < |cmds| && cmds[k].Oval? && Recorded(cmds)[j] == ToCircle(cmds[k])
    decreases |cmds|
  {
    if cmds[0].Oval? && j == 0 {
      k := 0;
    } else {
      var j' := if cmds[0].Oval? then j - 1 else j;
      var k' := RecordedSource(cmds[1..], j');
      k := k' + 1;
    }
  }

  /** The drawing pass of a frame: the tree from its root, at the given
      screen position, at full size and zero angle. */
  function Frame<T>(c: Controller<T>, tr: Trig, x: int, y: int): seq<Cmd>
    requires Valid(c.tree) && ValidTrig(tr) && ZoomOk(c)
  {
    DrawNode(Scene(c.tree, tr, c.zoom), x, y, c.tree.root, 0, 1.0, 0.0, true)
  }

  /** `draw`: the recorded list is cleared and refilled by this pass. */
  function Draw<T>(c: Controller<T>, tr: Trig, x: int, y: int): (r: Controller<T>)
    requires Valid(c.tree) && ValidTrig(tr) && ZoomOk(c)
    ensures r.tree == c.tree && r.zoom == c.zoom
    ensures r.drawn == Recorded(Frame(c, tr, x, y))
    ensures |r.drawn| <= |Frame(c, tr, x, y)|
  {
    c.(drawn := Recorded(Frame(c, tr, x, y)))
  }

  /** Nothing of an earlier frame survives a draw. */
  lemma DrawForgetsEarlierFrames<T>(c: Controller<T>, tr: Trig, x: int, y: int, earlier: seq<Circle>)
    requires Valid(c.tree) && ValidTrig(tr) && ZoomOk(c)
    ensures Draw(c.(drawn := earlier), tr, x, y) == Draw(c, tr, x, y)
  {
  }

  /** Every frame goes at most `Budget(1, zoom)` levels deep, cycles in the
      tree notwithstanding, and its root circle comes first when drawn. */
  lemma FrameDepthBounded<T>(c: Controller<T>, tr: Trig, x: int, y: int)
    requires Valid(c.tree) && ValidTrig(tr) && ZoomOk(c)
    ensures forall k :: 0 <= k < |Frame(c, tr, x, y)| ==> Frame(c, tr, x, y)[k].depth <= Budget(1.0, c.zoom)
    ensures CircleVisible(x, y, Radius(1.0, c.zoom)) ==> Frame(c, tr, x, y)[0].Oval?
  {
    var f := Frame(c, tr, x, y);
    assert DepthsIn(f, 0, Budget(1.0, c.zoom));
  }

  /** As long as no circle is large enough for a cast to wrap, every
      recorded circle is one that is on screen, with a non-negative radius
      no larger than the root's. */
  lemma DrawnCirclesOnScreen<T>(c: Controller<T>, tr: Trig, x: int, y: int)
    requires Valid(c.tree) && ValidTrig(tr) && ZoomOk(c)
    requires RadiusReal(1.0, c.zoom) < 0x4000_0000 as real
    ensures forall j :: 0 <= j < |Draw(c, tr, x, y).drawn| ==>
              var d := Draw(c, tr, x, y).drawn[j];
              0 <= d.radius <= Radius(1.0, c.zoom) && CircleVisible(d.x, d.y, d.radius)
  {
    var cmds := Frame(c, tr, x, y);
    var drawn := Draw(c, tr, x, y).drawn;
    forall j | 0 <= j < |drawn|
      ensures 0 <= drawn[j].radius <= Radius(1.0, c.zoom) && CircleVisible(drawn[j].x, drawn[j].y, drawn[j].radius)
    {
      var k := RecordedSource(cmds, j);
      assert CmdCulled(cmds[k]);
      assert cmds[k].radius as real <= RadiusReal(1.0, c.zoom);
    }
  }

  /** When the root's circle is visible and no cast wraps, the first circle
      a draw records is the root's, at the drawing position. */
  lemma DrawRecordsRootFirst<T>(c: Controller<T>, tr: Trig, x: int, y: int)
    requires Valid(c.tree) && ValidTrig(tr) && ZoomOk(c)
    requires CircleVisible(x, y, Radius(1.0, c.zoom))
    requires -TwoTo31 <= x < TwoTo31 && -TwoTo31 <= y < TwoTo31 && Radius(1.0, c.zoom) < TwoTo31
    ensures |Draw(c, tr, x, y).drawn| > 0
    ensures Draw(c, tr, x, y).drawn[0] == Circle(x, y, Radius(1.0, c.zoom))
  {
    var cmds := Frame(c, tr, x, y);
    assert cmds[0] == Oval(x, y, Radius(1.0, c.zoom), c.tree.root, 0);
    assert Recorded(cmds) == [ToCircle(cmds[0])] + Recorded(cmds[1..]);
  }

  /** The point is in circle i, and in no earlier circle. */
  predicate IsFirstHit(drawn: seq<Circle>, px: int, py: int, i: int) {
    && 0 <= i < |drawn|
    && InCircle(px, py, drawn[i])
    && (forall j :: 0 <= j < i ==> !InCircle(px, py, drawn[j]))
  }

  /** The hit test as a function: the first recorded circle that strictly
      contains the point, or none. */
  function CircleAtPoint(drawn: seq<Circle>, px: int, py: int): (r: Option<Circle>)
    ensures r.None? <==> forall j :: 0 <= j < |drawn| ==> !InCircle(px, py, drawn[j])
    ensures r.Some? ==> r.value in drawn && InCircle(px, py, r.value) && r.value.radius >= 1
  {
    if |drawn| == 0 then None
    else if InCircle(px, py, drawn[0]) then
      InCircleStrict(px, py, drawn[0]);
      Some(drawn[0])
    else
      var r := CircleAtPoint(drawn[1..], px, py);
      assert forall j :: 1 <= j < |drawn| ==> drawn[j] == drawn[1..][j - 1];
      r
  }

  /** What `CircleAtPoint` finds is the first circle containing the point. */
  lemma {:induction false} CircleAtPointIsFirstHit(drawn: seq<Circle>, px: int, py: int)
    ensures CircleAtPoint(drawn, px, py).Some? ==>
              exists i :: IsFirstHit(drawn, px, py, i) && CircleAtPoint(drawn, px, py).value == drawn[i]
  {
    if |drawn| > 0 && !InCircle(px, py, drawn[0]) {
      CircleAtPointIsFirstHit(drawn[1..], px, py);
      if CircleAtPoint(drawn[1..], px, py).Some? {
        var i :| IsFirstHit(drawn[1..], px, py, i) && CircleAtPoint(drawn[1..], px, py).value == drawn[1..][i];
        assert IsFirstHit(drawn, px, py, i + 1);
      }
    } else if |drawn| > 0 {
      assert IsFirstHit(drawn, px, py, 0);
    }
  }

  /** `getCircleAtPoint`: the loop over the recorded circles, returning the
      first that strictly contains the point. */
  method GetCircleAtPoint<T>(c: Controller<T>, px: int, py: int) returns (r: Option<Circle>)
    ensures r == CircleAtPoint(c.drawn, px, py)
    ensures r.Some? ==> exists i :: IsFirstHit(c.drawn, px, py, i) && r.value == c.drawn[i]
  {
    var i := 0;
    while i < |c.drawn|
      invariant 0 <= i <= |c.drawn|
      invariant forall j :: 0 <= j < i ==> !InCircle(px, py, c.drawn[j])
      invariant CircleAtPoint(c.drawn[i..], px, py) == CircleAtPoint(c.drawn, px, py)
    {
      if InCircle(px, py, c.drawn[i]) {
        assert IsFirstHit(c.drawn, px, py, i);
        return Some(c.drawn[i]);
      }
      assert c.drawn[i..][1..] == c.drawn[i + 1..];
      i := i + 1;
    }
    return None;
  }

  /** Conversely, the first circle containing the point is the one found. */
  lemma {:induction false} FirstHitFound(drawn: seq<Circle>, px: int, py: int, i: int)
    requires IsFirstHit(drawn, px, py, i)
    ensures CircleAtPoint(drawn, px, py) == Some(drawn[i])
    decreases i
  {
    if i > 0 {
      assert !InCircle(px, py, drawn[0]);
      assert IsFirstHit(drawn[1..], px, py, i - 1);
      FirstHitFound(drawn[1..], px, py, i - 1);
    }
  }

  /** On overlap the earlier-drawn circle wins: a circle drawn after another
      one containing the point is never returned (unless an equal circle was
      drawn before it). */
  lemma EarlierCircleWins(drawn: seq<Circle>, px: int, py: int, i: int, j: int)
    requires 0 <= i < j < |drawn|
    requires InCircle(px, py, drawn[i]) && InCircle(px, py, drawn[j])
    requires drawn[j] !in drawn[..j]
    ensures CircleAtPoint(drawn, px, py) != Some(drawn[j])
  {
    CircleAtPointIsFirstHit(drawn, px, py);
    var k :| IsFirstHit(drawn, px, py, k) && CircleAtPoint(drawn, px, py).value == drawn[k];
    assert k <= i;
    assert drawn[k] in drawn[..j];
  }

  /** There is at most one first hit. */
  lemma FirstHitUnique(drawn: seq<Circle>, px: int, py: int, i: int, j: int)
    requires IsFirstHit(drawn, px, py, i) && IsFirstHit(drawn, px, py, j)
    ensures i == j
  {
  }

  /** A single-node tree at zoom 1 drawn at the centre of the viewport
      records exactly one circle, of radius 50, at the centre. */
  lemma SingleNodeFrame<T>(d: T, tr: Trig)
    requires ValidTrig(tr)
    ensures Draw(NewController(NewTree(d)), tr, 400, 300).drawn == [Circle(400, 300, 50)]
  {
    var c := NewController(NewTree(d));
    assert Radius(1.0, 1.0) == 50;
    var sc := Scene(c.tree, tr, c.zoom);
    assert DrawFan(sc, 400, 300, 0, 0, 1.0, 0.0, true) == [];
    var cmds := Frame(c, tr, 400, 300);
    assert cmds == [Oval(400, 300, 50, 0, 0), Label(400, 300, 50, 0, 0)];
    assert Recorded(cmds[1..]) == [];
  }

  /** A pass without circles records nothing. */
  lemma {:induction false} RecordedNoOvals(cmds: seq<Cmd>)
    requires forall k :: 0 <= k < |cmds| ==> !cmds[k].Oval?
    ensures Recorded(cmds) == []
    decreases |cmds|
  {
    if |cmds| > 0 {
      RecordedNoOvals(cmds[1..]);
    }
  }

  /** A pass whose only circle is its first command records that circle
      alone. */
  lemma RecordedFirstOnly(cmds: seq<Cmd>)
    requires |cmds| > 0 && cmds[0].Oval?
    requires forall k :: 1 <= k < |cmds| ==> !cmds[k].Oval?
    ensures Recorded(cmds) == [ToCircle(cmds[0])]
  {
    RecordedNoOvals(cmds[1..]);
  }

  /** A visible node of radius at least 2 records its own circle, then
      what its children record. */
  lemma OwnCircleThenFan<T>(sc: Scene<T>, x: int, y: int, n: NodeId, depth: nat,
                            sp: real, angle: real, isRoot: bool)
    requires SceneOk(sc) && n in sc.tree.nodes && sp >= 0.0
    requires Radius(sp, sc.zoom) >= MinimumRadiusDraw && CircleVisible(x, y, Radius(sp, sc.zoom))
    ensures Recorded(DrawNode(sc, x, y, n, depth, sp, angle, isRoot))
            == [ToCircle(Oval(x, y, Radius(sp, sc.zoom), n, depth))] + Recorded(DrawFan(sc, x, y, n, depth, sp, angle, isRoot))
  {
    var r := DrawNode(sc, x, y, n, depth, sp, angle, isRoot);
    var fan := DrawFan(sc, x, y, n, depth, sp, angle, isRoot);
    NodeThenFan(sc, x, y, n, depth, sp, angle, isRoot);
    var head := r[..|r| - |fan|];
    assert r == head + fan;
    forall k | 1 <= k < |head|
      ensures !head[k].Oval?
    {
      assert head[k] == r[1..][k - 1];
    }
    RecordedFirstOnly(head);
    RecordedConcat(head, fan);
  }

  /** A visible node without children records exactly its own circle. */
  lemma LeafRecordsItsCircle<T>(sc: Scene<T>, x: int, y: int, n: NodeId, depth: nat,
                                sp: real, angle: real, isRoot: bool)
    requires SceneOk(sc) && n in sc.tree.nodes && sp >= 0.0
    requires sc.tree.nodes[n].children == [] && CircleVisible(x, y, Radius(sp, sc.zoom))
    ensures Recorded(DrawNode(sc, x, y, n, depth, sp, angle, isRoot)) == [ToCircle(Oval(x, y, Radius(sp, sc.zoom), n, depth))]
  {
    var r := DrawNode(sc, x, y, n, depth, sp, angle, isRoot);
    if Radius(sp, sc.zoom) >= MinimumRadiusDraw {
      OwnCircleThenFan(sc, x, y, n, depth, sp, angle, isRoot);
      FanLaysOutChildren(sc, x, y, n, depth, sp, angle, isRoot);
    } else {
      assert r == [r[0]];
      RecordedFirstOnly(r);
    }
  }

  /** Every centre within `reach` of (x, y) is in the viewport. */
  predicate ReachOnScreen(x: int, y: int, reach: real) {
    && reach <= x as real <= ViewWidth as real - reach
    && reach <= y as real <= ViewHeight as real - reach
  }

  /** Children that are visible leaves each record exactly one circle. */
  lemma {:induction false} LeafChildrenRecordOneEach<T>(sc: Scene<T>, f: Fan, children: seq<NodeId>, i: nat)
    requires FanOk(sc, f) && i <= |children|
    requires forall j :: 0 <= j < |children| ==> children[j] in sc.tree.nodes && sc.tree.nodes[children[j]].children == []
    requires ReachOnScreen(f.x, f.y, ChildReach(f.sp, sc.zoom))
    ensures |Recorded(DrawChildren(sc, f, children, i))| == |children| - i
    decreases |children| - i
  {
    if i < |children| {
      OneMoreCircle(sc, f, children, i);
      LeafChildrenRecordOneEach(sc, f, children, i + 1);
    } else {
      assert DrawChildren(sc, f, children, i) == [];
    }
  }

  /** Child `i`, a visible leaf, adds one circle to what the children after
      it record. */
  lemma OneMoreCircle<T>(sc: Scene<T>, f: Fan, children: seq<NodeId>, i: nat)
    requires FanOk(sc, f) && i < |children|
    requires forall j :: 0 <= j < |children| ==> children[j] in sc.tree.nodes && sc.tree.nodes[children[j]].children == []
    requires ReachOnScreen(f.x, f.y, ChildReach(f.sp, sc.zoom))
    ensures |Recorded(DrawChildren(sc, f, children, i))| == 1 + |Recorded(DrawChildren(sc, f, children, i + 1))|
  {
    BudgetShrinks(f.sp, f.childSp, sc.zoom);
    ChildrenUnfold(sc, f, children, i);
    var centre := ChildCentre(sc, f, i);
    var edge := EdgeTo(sc, f, i);
    var child := DrawNode(sc, centre.0, centre.1, children[i], f.depth + 1, f.childSp, ChildDirection(f, i) + Pi, false);
    EdgeAndLeafRecordOne(sc, f, children[i], ChildDirection(f, i) + Pi, edge, centre.0, centre.1);
    RecordedConcat(edge + child, DrawChildren(sc, f, children, i + 1));
  }

  /** The edge to a visible leaf child, followed by the child, records one
      circle. */
  lemma EdgeAndLeafRecordOne<T>(sc: Scene<T>, f: Fan, n: NodeId, angle: real, edge: seq<Cmd>, nx: int, ny: int)
    requires FanOk(sc, f) && n in sc.tree.nodes && sc.tree.nodes[n].children == []
    requires ReachOnScreen(f.x, f.y, ChildReach(f.sp, sc.zoom))
    requires ChildEdge(edge, f.depth)
    requires Within(nx, f.x, ChildReach(f.sp, sc.zoom)) && Within(ny, f.y, ChildReach(f.sp, sc.zoom))
    ensures |Recorded(edge + DrawNode(sc, nx, ny, n, f.depth + 1, f.childSp, angle, false))| == 1
  {
    var child := DrawNode(sc, nx, ny, n, f.depth + 1, f.childSp, angle, false);
    assert OnScreen(nx, ny);
    LeafRecordsItsCircle(sc, nx, ny, n, f.depth + 1, f.childSp, angle, false);
    RecordedNoOvals(edge);
    RecordedConcat(edge, child);
  }

  /** End to end: a root whose children have no children of their own,
      drawn at zoom 1 at the centre of the viewport, records one circle per
      node, the root's first, at the centre with radius 50. */
  lemma StarFrame<T>(c: Controller<T>, tr: Trig)
    requires Valid(c.tree) && ValidTrig(tr) && c.zoom == 1.0
    requires var kids := c.tree.nodes[c.tree.root].children;
             forall j :: 0 <= j < |kids| ==> c.tree.nodes[kids[j]].children == []
    ensures var drawn := Draw(c, tr, 400, 300).drawn;
            && |drawn| == |c.tree.nodes[c.tree.root].children| + 1
            && drawn[0] == Circle(400, 300, 50)
  {
    var sc := Scene(c.tree, tr, c.zoom);
    var root := c.tree.root;
    var kids := c.tree.nodes[root].children;
    assert Radius(1.0, 1.0) == 50;
    OwnCircleThenFan(sc, 400, 300, root, 0, 1.0, 0.0, true);
    if |kids| > 0 {
      var f := FanOf(sc, 400, 300, 0, 1.0, 0.0, |kids|, true);
      assert DrawFan(sc, 400, 300, root, 0, 1.0, 0.0, true) == DrawChildren(sc, f, kids, 0);
      assert ChildReach(1.0, 1.0) == 200.0;
      LeafChildrenRecordOneEach(sc, f, kids, 0);
    } else {
      FanLaysOutChildren(sc, 400, 300, root, 0, 1.0, 0.0, true);
    }
  }
}

=== FILE: tree_loader.dfy ===
/** `TreeLoader.loadTreeFile`, reading from an in-memory string instead of a
    `File`.

    A `.tree` text is a sequence of tags `<id name>` ... `</id>`. The input
    is cut at every `<` (a `Scanner` with delimiter `<`), each piece is split
    into whitespace-separated words (a `Scanner` with its default
    delimiter), and the pieces drive a cursor over the tree being built. */
module TreeLoader {
  import opened Wrappers
  import opened TreeModel

  /** `Scanner.next` found no token (`NoSuchElementException`). */
  datatype LoadError = NoSuchElement

  /** `Character.isWhitespace` as of Java 7 and 8 (Unicode 6.x): the
      Unicode space, line and paragraph separators other than the
      non-breaking ones, and the control characters U+0009..U+000D and
      U+001C..U+001F. U+180E MONGOLIAN VOWEL SEPARATOR is a space separator
      there; from Java 9 on it is not. */
  predicate IsJavaWhitespace(c: char) {
    || c == ' '
    || ('\t' <= c <= '\r')
    || ('\U{1C}' <= c <= '\U{1F}')
    || c == '\U{1680}'
    || c == '\U{180E}'
    || ('\U{2000}' <= c <= '\U{2006}')
    || ('\U{2008}' <= c <= '\U{200A}')
    || c == '\U{2028}'
    || c == '\U{2029}'
    || c == '\U{205F}'
    || c == '\U{3000}'
  }

  predicate IsWordChar(c: char) {
    !IsJavaWhitespace(c)
  }

  predicate IsDelimiter(c: char) {
    c == '<'
  }

  /** The first index whose character satisfies `stop`, or `|s|`. */
  function IndexWhere(s: string, stop: char -> bool): (k: nat)
    ensures k <= |s|
    ensures forall j :: 0 <= j < k ==> !stop(s[j])
    ensures k < |s| ==> stop(s[k])
  {
    if |s| == 0 || stop(s[0]) then 0 else 1 + IndexWhere(s[1..], stop)
  }

  // ---------------------------------------------------------------------
  // Tokenising

  /** The tokens of a `Scanner` whose delimiter is `<`: at each token one
      leading `<` is skipped and the token runs up to the next `<`. Two
      adjacent `<` therefore give an empty token; a `<` at the very end
      gives none. */
  function Tags(s: string): (tags: seq<string>)
    ensures forall i :: 0 <= i < |tags| ==> '<' !in tags[i]
    decreases |s|
  {
    if |s| == 0 then []
    else
      var rest := if s[0] == '<' then s[1..] else s;
      if |rest| == 0 then []
      else
        var q := IndexWhere(rest, IsDelimiter);
        assert q == 0 ==> s[0] == '<';
        assert forall j :: 0 <= j < q ==> rest[..q][j] == rest[j];
        [rest[..q]] + Tags(rest[q..])
  }

  /** The text `<t0<t1...` that the tags came from. */
  function JoinTags(tags: seq<string>): string {
    if |tags| == 0 then "" else "<" + tags[0] + JoinTags(tags[1..])
  }

  /** `IndexWhere` is pinned down by its three properties. */
  lemma {:induction false} IndexWhereIs(s: string, stop: char -> bool, k: nat)
    requires k <= |s|
    requires forall j :: 0 <= j < k ==> !stop(s[j])
    requires k < |s| ==> stop(s[k])
    ensures IndexWhere(s, stop) == k
    decreases k
  {
    if k > 0 {
      assert !stop(s[0]);
      IndexWhereIs(s[1..], stop, k - 1);
    }
  }

  /** Cutting at `<` undoes `JoinTags` when no tag is empty or holds a `<`. */
  lemma {:induction false} TagsJoinTags(tags: seq<string>)
    requires forall i :: 0 <= i < |tags| ==> |tags[i]| > 0 && '<' !in tags[i]
    ensures Tags(JoinTags(tags)) == tags
    decreases |tags|
  {
    if |tags| > 0 {
      var more := JoinTags(tags[1..]);
      assert |more| > 0 ==> more[0] == '<';
      TagsOfJoined(tags[0], more);
      assert JoinTags(tags) == "<" + tags[0] + more;
      TagsJoinTags(tags[1..]);
    }
  }

  /** One step of `TagsJoinTags`: a tag followed by `<` or the end. */
  lemma TagsOfJoined(t: string, more: string)
    requires |t| > 0 && '<' !in t
    requires |more| > 0 ==> more[0] == '<'
    ensures Tags("<" + t + more) == [t] + Tags(more)
  {
    var s := "<" + t + more;
    var rest := t + more;
    assert s[1..] == rest;
    assert forall j :: 0 <= j < |t| ==> rest[j] == t[j];
    IndexWhereIs(rest, IsDelimiter, |t|);
    assert rest[..|t|] == t;
    assert rest[|t|..] == more;
  }

  /** A word of the default `Scanner`: non-empty, no whitespace. */
  ghost predicate IsWord(w: string) {
    |w| > 0 && forall j :: 0 <= j < |w| ==> IsWordChar(w[j])
  }

  /** The tokens of a `Scanner` with its default delimiter: maximal runs of
      non-whitespace characters, in order. */
  function Words(s: string): (ws: seq<string>)
    ensures forall i :: 0 <= i < |ws| ==> IsWord(ws[i])
    decreases |s|
  {
    var p := IndexWhere(s, IsWordChar);
    if p == |s| then []
    else
      var rest := s[p..];
      var q := IndexWhere(rest, IsJavaWhitespace);
      assert forall j :: 0 <= j < q ==> rest[..q][j] == rest[j];
      [rest[..q]] + Words(rest[q..])
  }

  /** The words separated by single spaces, each preceded by one. */
  function JoinWords(ws: seq<string>): string {
    if |ws| == 0 then "" else " " + ws[0] + JoinWords(ws[1..])
  }

  /** Only whitespace: no word at all. */
  ghost predicate IsBlank(s: string) {
    forall j :: 0 <= j < |s| ==> IsJavaWhitespace(s[j])
  }

  /** Blanks hold no word. */
  lemma BlankHasNoWords(tail: string)
    requires IsBlank(tail)
    ensures Words(tail) == []
  {
    IndexWhereIs(tail, IsWordChar, |tail|);
  }

  /** A word followed by whitespace and more text splits off as the first
      word. */
  lemma FirstWord(w: string, after: string)
    requires IsWord(w)
    requires |after| > 0 ==> IsJavaWhitespace(after[0])
    ensures Words(w + after) == [w] + Words(after)
  {
    var s := w + after;
    IndexWhereIs(s, IsWordChar, 0);
    assert s[0..] == s;
    assert forall j :: 0 <= j < |w| ==> s[j] == w[j];
    IndexWhereIs(s, IsJavaWhitespace, |w|);
    assert s[..|w|] == w;
    assert s[|w|..] == after;
  }

  /** A word followed by a space-joined list of words and then blanks
      splits back into exactly those words. */
  lemma {:induction false} WordsJoinWords(w: string, ws: seq<string>, tail: string)
    requires IsWord(w) && IsBlank(tail)
    requires forall i :: 0 <= i < |ws| ==> IsWord(ws[i])
    ensures Words(w + JoinWords(ws) + tail) == [w] + ws
    decreases |ws|
  {
    var after := JoinWords(ws) + tail;
    assert w + JoinWords(ws) + tail == w + after;
    if |ws| > 0 {
      assert after == " " + (ws[0] + JoinWords(ws[1..]) + tail);
      assert after[0] == ' ';
      FirstWord(w, after);
      var inner := ws[0] + JoinWords(ws[1..]) + tail;
      WordsJoinWords(ws[0], ws[1..], tail);
      IndexWhereIs(after, IsWordChar, 1) by {
        assert after[1] == inner[0] == ws[0][0];
      }
      assert after[1..] == inner;
      assert Words(after) == Words(inner);
      assert [ws[0]] + ws[1..] == ws;
    } else {
      assert after == tail;
      assert |after| > 0 ==> IsJavaWhitespace(after[0]);
      FirstWord(w, after);
      BlankHasNoWords(tail);
    }
  }

  // ---------------------------------------------------------------------
  // Parsing

  /** An id starting with `/` marks a closing tag. */
  predicate IsClosing(id: string)
    requires |id| > 0
  {
    id[0] == '/'
  }

  /** The node name: the word with its last character (the `>`) cut off. */
  function TagName(word: string): string
    requires |word| > 0
  {
    word[..|word| - 1]
  }

  /** The tree under construction and the node new tags go below. */
  datatype Cursor = Cursor(tree: Tree<Option<string>>, current: NodeId)

  ghost predicate Ready(c: Cursor) {
    Shaped(c.tree) && c.current in c.tree.nodes
  }

  /** No node loses its data. */
  ghost predicate KeepsData<T>(t1: Tree<T>, t2: Tree<T>) {
    forall id :: id in t1.nodes ==> id in t2.nodes && t2.nodes[id].data == t1.nodes[id].data
  }

  datatype Step = Continue(cursor: Cursor) | Stop | Fail(error: LoadError)

  /** One iteration of the loading loop on one tag. */
  function TagStep(c: Cursor, tag: string): (r: Step)
    requires Ready(c)
    ensures r.Continue? ==> Ready(r.cursor) && Grows(c.tree, r.cursor.tree) && KeepsData(c.tree, r.cursor.tree)
    ensures var w := Words(tag);
            r.Fail? <==> |w| == 0 || (!IsClosing(w[0]) && |w| < 2)
    ensures var w := Words(tag);
            r.Stop? <==> |w| > 0 && IsClosing(w[0]) && c.current == c.tree.root
    ensures var w := Words(tag);
            |w| > 0 && IsClosing(w[0]) && c.current != c.tree.root ==>
              r.Continue? && r.cursor.tree == c.tree
              && c.tree.nodes[c.current].parent == Some(r.cursor.current)
    ensures var w := Words(tag);
            |w| >= 2 && !IsClosing(w[0]) ==>
              && r.Continue?
              && var n := r.cursor.current;
              && n !in c.tree.nodes
              && r.cursor.tree.nodes.Keys == c.tree.nodes.Keys + {n}
              && r.cursor.tree.nodes[c.current].children == c.tree.nodes[c.current].children + [n]
              && r.cursor.tree.nodes[n] == Node(Some(TagName(w[1])), Some(c.current), [])
  {
    var w := Words(tag);
    if |w| == 0 then Fail(NoSuchElement)
    else if IsClosing(w[0]) then
      if c.current == c.tree.root then Stop
      else
        ClimbReady(c);
        Continue(Cursor(c.tree, c.tree.nodes[c.current].parent.value))
    else if |w| < 2 then Fail(NoSuchElement)
    else
      DescendReady(c, Some(TagName(w[1])));
      var (t, n) := AddChild(c.tree, c.current, Some(TagName(w[1])));
      Continue(Cursor(t, n))
  }

  /** Climbing from a node other than the root reaches a node of the tree. */
  lemma ClimbReady(c: Cursor)
    requires Ready(c) && c.current != c.tree.root
    ensures c.tree.nodes[c.current].parent.Some?
    ensures Ready(Cursor(c.tree, c.tree.nodes[c.current].parent.value))
    ensures Grows(c.tree, c.tree) && KeepsData(c.tree, c.tree)
  {
  }

  /** Descending into a fresh child keeps the cursor ready and only grows
      the tree. */
  lemma DescendReady(c: Cursor, d: Option<string>)
    requires Ready(c)
    ensures var (t, n) := AddChild(c.tree, c.current, d);
            Ready(Cursor(t, n)) && Grows(c.tree, t) && KeepsData(c.tree, t)
  {
    AddChildKeepsShape(c.tree, c.current, d);
  }

  /** A tag the loop cannot read: it has no word, or it opens a node but
      has no second word for the name. */
  predicate Fails(tag: string) {
    var w := Words(tag);
    |w| == 0 || (!IsClosing(w[0]) && |w| < 2)
  }

  /** A closing tag. */
  predicate Closes(tag: string) {
    var w := Words(tag);
    |w| > 0 && IsClosing(w[0])
  }

  /** An opening tag whose node is called `name`. */
  predicate Names(tag: string, name: string) {
    var w := Words(tag);
    |w| >= 2 && !IsClosing(w[0]) && name == TagName(w[1])
  }

  predicate AnyFails(tags: seq<string>) {
    exists k :: 0 <= k < |tags| && Fails(tags[k])
  }

  predicate NoneCloses(tags: seq<string>) {
    forall k :: 0 <= k < |tags| ==> !Closes(tags[k])
  }

  /** `d` is the name an opening tag among `tags` gives. */
  ghost predicate NamedBy(tags: seq<string>, d: Option<string>) {
    exists k, name :: 0 <= k < |tags| && Names(tags[k], name) && d == Some(name)
  }

  /** The loop after the root tag: tags are consumed until the input ends,
      a closing tag arrives at the root, or a word is missing. */
  function Run(c: Cursor, tags: seq<string>): (r: Result<Tree<Option<string>>, LoadError>)
    requires Ready(c)
    ensures r.Ok? ==> Shaped(r.value) && Grows(c.tree, r.value) && KeepsData(c.tree, r.value)
    ensures r.Err? ==> AnyFails(tags)
    ensures !AnyFails(tags) ==> r.Ok?
    ensures |tags| > 0 && Fails(tags[0]) ==> r.Err?
    ensures NoneCloses(tags) ==> (r.Err? <==> AnyFails(tags))
    ensures r.Ok? ==> |r.value.nodes| <= |c.tree.nodes| + |tags|
    ensures r.Ok? && NoneCloses(tags) ==> |r.value.nodes| == |c.tree.nodes| + |tags|
    ensures r.Ok? ==> forall id :: id in r.value.nodes && id !in c.tree.nodes ==> NamedBy(tags, r.value.nodes[id].data)
    decreases |tags|
  {
    if |tags| == 0 then Ok(c.tree)
    else
      TagsShift(tags);
      match TagStep(c, tags[0])
      case Stop => Ok(c.tree)
      case Fail(e) => Err(e)
      case Continue(c2) =>
        var r := Run(c2, tags[1..]);
        if r.Ok? then
          GrowsTransitive(c.tree, c2.tree, r.value);
          var name := if Closes(tags[0]) || Fails(tags[0]) then "" else TagName(Words(tags[0])[1]);
          ContinueCounts(c, c2, tags, name, r.value);
          r
        else r
  }

  /** How the facts about a list of tags follow from those about its first
      tag and the rest. */
  lemma TagsShift(tags: seq<string>)
    requires |tags| > 0
    ensures AnyFails(tags) <==> Fails(tags[0]) || AnyFails(tags[1..])
    ensures NoneCloses(tags) <==> !Closes(tags[0]) && NoneCloses(tags[1..])
    ensures forall d :: NamedBy(tags[1..], d) ==> NamedBy(tags, d)
  {
    if AnyFails(tags[1..]) {
      var k :| 0 <= k < |tags| - 1 && Fails(tags[1..][k]);
      assert Fails(tags[k + 1]);
    }
    if AnyFails(tags) && !Fails(tags[0]) {
      var k :| 0 <= k < |tags| && Fails(tags[k]);
      assert Fails(tags[1..][k - 1]);
    }
    if !Closes(tags[0]) && NoneCloses(tags[1..]) {
      forall k | 0 <= k < |tags|
        ensures !Closes(tags[k])
      {
        if k > 0 {
          assert tags[k] == tags[1..][k - 1];
        }
      }
    }
    forall d | NamedBy(tags[1..], d)
      ensures NamedBy(tags, d)
    {
      var k, name :| 0 <= k < |tags| - 1 && Names(tags[1..][k], name) && d == Some(name);
      assert Names(tags[k + 1], name);
    }
  }

  /** The count and the names carry over one step of the loop that does
      not stop it. */
  lemma ContinueCounts(c: Cursor, c2: Cursor, tags: seq<string>, name: string, t: Tree<Option<string>>)
    requires |tags| > 0
    requires Closes(tags[0]) ==> c2.tree == c.tree
    requires !Closes(tags[0]) ==>
               && c2.current !in c.tree.nodes
               && c2.tree.nodes.Keys == c.tree.nodes.Keys + {c2.current}
               && Names(tags[0], name) && c2.tree.nodes[c2.current].data == Some(name)
    requires Grows(c2.tree, t) && KeepsData(c2.tree, t)
    requires |t.nodes| <= |c2.tree.nodes| + |tags| - 1
    requires NoneCloses(tags[1..]) ==> |t.nodes| == |c2.tree.nodes| + |tags| - 1
    requires forall id :: id in t.nodes && id !in c2.tree.nodes ==> NamedBy(tags[1..], t.nodes[id].data)
    requires forall d :: NamedBy(tags[1..], d) ==> NamedBy(tags, d)
    requires NoneCloses(tags) <==> !Closes(tags[0]) && NoneCloses(tags[1..])
    ensures |t.nodes| <= |c.tree.nodes| + |tags|
    ensures NoneCloses(tags) ==> |t.nodes| == |c.tree.nodes| + |tags|
    ensures forall id :: id in t.nodes && id !in c.tree.nodes ==> NamedBy(tags, t.nodes[id].data)
  {
    if !Closes(tags[0]) {
      var n := c2.current;
      assert |c2.tree.nodes.Keys| == |c.tree.nodes.Keys| + 1;
      assert NamedBy(tags, Some(name)) by {
        assert 0 <= 0 < |tags| && Names(tags[0], name);
      }
      assert t.nodes[n].data == Some(name);
    }
  }

  /** `loadTreeFile`: empty input gives a lone root whose data is `null`;
      otherwise the first tag names the root and the rest run the loop. */
  function Load(s: string): (r: Result<Tree<Option<string>>, LoadError>)
    ensures Tags(s) == [] ==> r == Ok(NewTree(None))
    ensures Tags(s) != [] && |Words(Tags(s)[0])| < 2 ==> r == Err(NoSuchElement)
    ensures r.Ok? ==> Shaped(r.value)
    ensures r.Ok? && Tags(s) != [] ==>
              var w := Words(Tags(s)[0]);
              |w| >= 2 && r.value.nodes[r.value.root].data == Some(TagName(w[1]))
    ensures r.Err? ==> Tags(s) != [] && (|Words(Tags(s)[0])| < 2 || AnyFails(Tags(s)[1..]))
    ensures Tags(s) != [] && |Words(Tags(s)[0])| >= 2 && !AnyFails(Tags(s)[1..]) ==> r.Ok?
    ensures Tags(s) != [] && |Words(Tags(s)[0])| >= 2 && NoneCloses(Tags(s)[1..]) ==>
              && (r.Err? <==> AnyFails(Tags(s)[1..]))
              && (r.Ok? ==> |r.value.nodes| == |Tags(s)|)
    ensures r.Ok? && Tags(s) != [] ==> |r.value.nodes| <= |Tags(s)|
    ensures r.Ok? ==> forall id :: id in r.value.nodes && id != r.value.root ==>
              NamedBy(Tags(s)[1..], r.value.nodes[id].data)
  {
    var tags := Tags(s);
    var t0 := NewTree(None);
    NewTreeShaped<Option<string>>(None);
    if |tags| == 0 then Ok(t0)
    else
      var w := Words(tags[0]);
      if |w| < 2 then Err(NoSuchElement)
      else
        SetDataKeepsShape(t0, t0.root, Some(TagName(w[1])));
        var t1 := SetData(t0, t0.root, Some(TagName(w[1])));
        assert t1.nodes.Keys == {t1.root} && |t1.nodes| == 1;
        Run(Cursor(t1, t1.root), tags[1..])
  }

  // ---------------------------------------------------------------------
  // Properties of the loop

  /** A closing tag at the root ends the parse; later input is ignored. */
  lemma CloseAtRootIgnoresRest(c: Cursor, tag: string, rest: seq<string>)
    requires Ready(c) && c.current == c.tree.root
    requires var w := Words(tag); |w| > 0 && IsClosing(w[0])
    ensures Run(c, [tag] + rest) == Ok(c.tree)
  {
    var tags := [tag] + rest;
    assert tags[0] == tag;
    assert TagStep(c, tags[0]) == Stop;
    assert Run(c, tags) == Ok(c.tree);
  }

  /** The id of a closing tag is not matched against the opening id. */
  lemma ClosingIdNotMatched(c: Cursor, tag1: string, tag2: string)
    requires Ready(c)
    requires var w := Words(tag1); |w| > 0 && IsClosing(w[0])
    requires var w := Words(tag2); |w| > 0 && IsClosing(w[0])
    ensures TagStep(c, tag1) == TagStep(c, tag2)
  {
  }

  /** An opening tag as written in a file, `id name>` and a line break,
      has exactly the two words. */
  lemma OpeningTagWords(id: string, name: string)
    requires IsWord(id) && IsWord(name)
    ensures Words(id + " " + name + "\n") == [id, name]
  {
    assert id + " " + name + "\n" == id + JoinWords([name]) + "\n";
    WordsJoinWords(id, [name], "\n");
  }

  /** A closing tag `/id>` and a line break is one word. */
  lemma ClosingTagWords(close: string)
    requires IsWord(close)
    ensures Words(close + "\n") == [close]
  {
    assert close + "\n" == close + JoinWords([]) + "\n";
    WordsJoinWords(close, [], "\n");
  }

  /** `/id>` is a word when `id` is. */
  lemma ClosingTagIsWord(id: string)
    requires IsWord(id)
    ensures IsWord("/" + id + ">")
  {
    var w := "/" + id + ">";
    forall j | 0 <= j < |w|
      ensures IsWordChar(w[j])
    {
      if 1 <= j < |w| - 1 {
        assert w[j] == id[j - 1];
      }
    }
  }

  /** From the root, an opening tag followed by two closing tags adds one
      child below the root and then stops. */
  lemma OpenThenCloseTwice(c: Cursor, tags: seq<string>)
    requires Ready(c) && c.current == c.tree.root && |tags| == 3
    requires var w := Words(tags[0]); |w| >= 2 && !IsClosing(w[0])
    requires var w := Words(tags[1]); |w| > 0 && IsClosing(w[0])
    requires var w := Words(tags[2]); |w| > 0 && IsClosing(w[0])
    ensures var r := Run(c, tags);
            && r.Ok?
            && r.value.root == c.tree.root
            && r.value.nodes[r.value.root].data == c.tree.nodes[c.tree.root].data
            && r.value.nodes[r.value.root].children == c.tree.nodes[c.tree.root].children + [r.value.nodes[r.value.root].children[|r.value.nodes[r.value.root].children| - 1]]
            && var k := r.value.nodes[r.value.root].children[|r.value.nodes[r.value.root].children| - 1];
            && r.value.nodes[k] == Node(Some(TagName(Words(tags[0])[1])), Some(c.tree.root), [])
  {
    var c2 := TagStep(c, tags[0]).cursor;
    assert Run(c, tags) == Run(c2, tags[1..]);
    var c3 := TagStep(c2, tags[1]).cursor;
    assert tags[1..][1..] == tags[2..];
    assert Run(c2, tags[1..]) == Run(c3, tags[2..]);
    assert TagStep(c3, tags[2]) == Stop;
  }

  /** A well-formed id or name: a word free of `<`. */
  ghost predicate IsToken(w: string) {
    IsWord(w) && '<' !in w
  }

  /** A file holding one node with one child,
      `<id1 name1>` `<id2 name2>` `</id2>` `</id1>`, one tag per line. */
  function ParentChildFile(id1: string, name1: string, id2: string, name2: string): string {
    JoinTags([id1 + " " + (name1 + ">") + "\n", id2 + " " + (name2 + ">") + "\n",
              ("/" + id2 + ">") + "\n", ("/" + id1 + ">") + "\n"])
  }

  /** The tags of such a file and their words. */
  lemma ParentChildTokens(id1: string, name1: string, id2: string, name2: string)
    requires IsToken(id1) && IsToken(id2)
    requires IsToken(name1 + ">") && IsToken(name2 + ">")
    ensures var tags := Tags(ParentChildFile(id1, name1, id2, name2));
            && |tags| == 4
            && Words(tags[0]) == [id1, name1 + ">"]
            && Words(tags[1]) == [id2, name2 + ">"]
            && Words(tags[2]) == ["/" + id2 + ">"]
            && Words(tags[3]) == ["/" + id1 + ">"]
  {
    var w1, w2 := name1 + ">", name2 + ">";
    var close2, close1 := "/" + id2 + ">", "/" + id1 + ">";
    var tags := [id1 + " " + w1 + "\n", id2 + " " + w2 + "\n", close2 + "\n", close1 + "\n"];
    assert ParentChildFile(id1, name1, id2, name2) == JoinTags(tags);
    TagsJoinTags(tags);
    OpeningTagWords(id1, w1);
    OpeningTagWords(id2, w2);
    ClosingTagIsWord(id2);
    ClosingTagIsWord(id1);
    ClosingTagWords(close2);
    ClosingTagWords(close1);
  }

  /** Such a file loads as a root named `name1` whose single child is
      named `name2` and has the root as its parent. */
  lemma LoadParentAndChild(id1: string, name1: string, id2: string, name2: string)
    requires IsToken(id1) && IsToken(id2) && id2[0] != '/'
    requires IsToken(name1 + ">") && IsToken(name2 + ">")
    ensures var r := Load(ParentChildFile(id1, name1, id2, name2));
            && r.Ok?
            && r.value.nodes[r.value.root].data == Some(name1)
            && |r.value.nodes[r.value.root].children| == 1
            && var k := r.value.nodes[r.value.root].children[0];
            && r.value.nodes[k] == Node(Some(name2), Some(r.value.root), [])
  {
    ParentChildTokens(id1, name1, id2, name2);
    LoadTwoLevels(ParentChildFile(id1, name1, id2, name2), id1, name1, id2, name2);
  }

  /** Any text whose tags have the words of such a file loads that way. */
  lemma LoadTwoLevels(s: string, id1: string, name1: string, id2: string, name2: string)
    requires |id2| > 0 && id2[0] != '/' && |id1| > 0
    requires var tags := Tags(s);
             && |tags| == 4
             && Words(tags[0]) == [id1, name1 + ">"]
             && Words(tags[1]) == [id2, name2 + ">"]
             && Words(tags[2]) == ["/" + id2 + ">"]
             && Words(tags[3]) == ["/" + id1 + ">"]
    ensures var r := Load(s);
            && r.Ok?
            && r.value.nodes[r.value.root].data == Some(name1)
            && |r.value.nodes[r.value.root].children| == 1
            && var k := r.value.nodes[r.value.root].children[0];
            && r.value.nodes[k] == Node(Some(name2), Some(r.value.root), [])
  {
    var tags := Tags(s);
    assert TagName(name1 + ">") == name1;
    var t1 := NamedRoot(name1);
    LoadUnfold(s, t1);
    var rest := tags[1..];
    assert rest[0] == tags[1] && rest[1] == tags[2] && rest[2] == tags[3];
    RootWithOneChild(Cursor(t1, t1.root), name1, rest, id2, name2);
  }

  /** The tree after the first tag: a lone root holding `name`. */
  function NamedRoot(name: string): (t: Tree<Option<string>>)
    ensures Shaped(t) && t.root in t.nodes && t.nodes[t.root] == Node(Some(name), None, [])
  {
    var t0 := NewTree(None);
    NewTreeShaped<Option<string>>(None);
    SetDataKeepsShape(t0, t0.root, Some(name));
    SetData(t0, t0.root, Some(name))
  }

  /** A file whose first tag has two words loads as the loop run from a
      root holding the first tag's name. */
  lemma LoadUnfold(s: string, t1: Tree<Option<string>>)
    requires |Tags(s)| > 0 && |Words(Tags(s)[0])| >= 2
    requires t1 == NamedRoot(TagName(Words(Tags(s)[0])[1]))
    ensures Load(s) == Run(Cursor(t1, t1.root), Tags(s)[1..])
  {
  }

  /** From a lone root, the tags `<id2 name2>`, `</id2>`, `</id1>` give the
      root one child named `name2`. */
  lemma RootWithOneChild(c: Cursor, name1: string, rest: seq<string>, id2: string, name2: string)
    requires Ready(c) && c.current == c.tree.root
    requires c.tree.nodes[c.tree.root] == Node(Some(name1), None, [])
    requires |id2| > 0 && id2[0] != '/' && |rest| == 3 && Words(rest[0]) == [id2, name2 + ">"]
    requires var w := Words(rest[1]); |w| > 0 && IsClosing(w[0])
    requires var w := Words(rest[2]); |w| > 0 && IsClosing(w[0])
    ensures var r := Run(c, rest);
            && r.Ok?
            && r.value.nodes[r.value.root].data == Some(name1)
            && |r.value.nodes[r.value.root].children| == 1
            && var k := r.value.nodes[r.value.root].children[0];
            && r.value.nodes[k] == Node(Some(name2), Some(r.value.root), [])
  {
    assert TagName(name2 + ">") == name2;
    OpenThenCloseTwice(c, rest);
  }

}

=== FILE: tree_model.dfy ===
/** The append-only n-ary tree of `Tree.java`, stored as an arena.

    Java nodes are objects referenced by identity; here each node has a
    `NodeId` and the tree is a map from ids to node records. Children lists
    are the ownership edges, `parent` is the independent back-reference.
    Because `Attach` (the `addChild(Node)` overload) re-uses an existing node
    without touching its parent pointer, the child relation may be cyclic. */
module TreeModel {
  import opened Wrappers

  type NodeId = nat

  datatype Node<T> = Node(data: T, parent: Option<NodeId>, children: seq<NodeId>)

  /** `next` is the id the next allocated node receives. */
  datatype Tree<T> = Tree(nodes: map<NodeId, Node<T>>, root: NodeId, next: NodeId)

  /** Every id the arena mentions is allocated, and ids are below `next`. */
  ghost predicate Valid<T>(t: Tree<T>) {
    && t.root in t.nodes
    && (forall id :: id in t.nodes ==> id < t.next)
    && (forall id, i :: id in t.nodes && 0 <= i < |t.nodes[id].children| ==> t.nodes[id].children[i] in t.nodes)
    && (forall id :: id in t.nodes && t.nodes[id].parent.Some? ==> t.nodes[id].parent.value in t.nodes)
  }

  /** `new Tree<T>(rootData)`: a single root with no parent and no children. */
  function NewTree<T>(data: T): (t: Tree<T>)
    ensures Valid(t)
    ensures t.nodes.Keys == {t.root}
    ensures t.nodes[t.root] == Node(data, None, [])
  {
    Tree(map[0 := Node(data, None, [])], 0, 1)
  }

  /** `getRootNode`: the root, which is always a node of the tree. */
  function GetRootNode<T>(t: Tree<T>): (r: NodeId)
    ensures Valid(t) ==> r in t.nodes
  {
    t.root
  }

  /** `getData`: writing back the data just read changes nothing. */
  function GetData<T>(t: Tree<T>, n: NodeId): (r: T)
    requires n in t.nodes
    ensures Valid(t) ==> SetData(t, n, r) == t
  {
    t.nodes[n].data
  }

  /** `getParent`: the back-reference, `None` for Java's null; a parent is
      always a node of the tree. */
  function GetParent<T>(t: Tree<T>, n: NodeId): (r: Option<NodeId>)
    requires n in t.nodes
    ensures Valid(t) && r.Some? ==> r.value in t.nodes
  {
    t.nodes[n].parent
  }

  /** `getChildren`: the children in the order they were added, each a
      node of the tree. */
  function GetChildren<T>(t: Tree<T>, n: NodeId): (r: seq<NodeId>)
    requires n in t.nodes
    ensures Valid(t) ==> forall i :: 0 <= i < |r| ==> r[i] in t.nodes
  {
    t.nodes[n].children
  }

  /** The `Node(data, parent)` constructor: a fresh, detached node with no
      children, allocated in the arena. Nothing else changes. */
  function NewNode<T>(t: Tree<T>, data: T, parent: Option<NodeId>): (r: (Tree<T>, NodeId))
    requires Valid(t)
    requires parent.Some? ==> parent.value in t.nodes
    ensures Valid(r.0)
    ensures r.1 !in t.nodes
    ensures r.0.nodes == t.nodes[r.1 := Node(data, parent, [])]
    ensures r.0.root == t.root
  {
    (Tree(t.nodes[t.next := Node(data, parent, [])], t.root, t.next + 1), t.next)
  }

  /** `addChild(T data)`: creates a node whose parent is `n` and appends it
      to the end of `n`'s children. Returns the new node. */
  function AddChild<T>(t: Tree<T>, n: NodeId, data: T): (r: (Tree<T>, NodeId))
    requires Valid(t) && n in t.nodes
    ensures Valid(r.0)
    ensures r.1 !in t.nodes
    ensures r.0.nodes.Keys == t.nodes.Keys + {r.1}
    ensures r.0.nodes[r.1] == Node(data, Some(n), [])
    ensures r.0.nodes[n] == t.nodes[n].(children := t.nodes[n].children + [r.1])
    ensures forall id :: id in t.nodes && id != n ==> r.0.nodes[id] == t.nodes[id]
    ensures r.0.root == t.root
  {
    var (t1, c) := NewNode(t, data, Some(n));
    var p := t1.nodes[n];
    (t1.(nodes := t1.nodes[n := p.(children := p.children + [c])]), c)
  }

  /** `addChild(Node node)`: appends an existing node to `n`'s children and
      leaves that node's parent pointer alone. Returns the node. With
      `c == n` or `c` an ancestor of `n` this closes a cycle. */
  function Attach<T>(t: Tree<T>, n: NodeId, c: NodeId): (r: (Tree<T>, NodeId))
    requires Valid(t) && n in t.nodes && c in t.nodes
    ensures Valid(r.0)
    ensures r.1 == c
    ensures r.0.nodes.Keys == t.nodes.Keys
    ensures r.0.nodes[n] == t.nodes[n].(children := t.nodes[n].children + [c])
    ensures r.0.nodes[c].parent == t.nodes[c].parent && r.0.nodes[c].data == t.nodes[c].data
    ensures forall id :: id in t.nodes && id != n ==> r.0.nodes[id] == t.nodes[id]
    ensures r.0.root == t.root
  {
    var p := t.nodes[n];
    (t.(nodes := t.nodes[n := p.(children := p.children + [c])]), c)
  }

  /** `setData`: overwrites the data of `n`; parent and children stay. */
  function SetData<T>(t: Tree<T>, n: NodeId, data: T): (r: Tree<T>)
    requires Valid(t) && n in t.nodes
    ensures Valid(r)
    ensures r.nodes.Keys == t.nodes.Keys
    ensures r.nodes[n] == Node(data, t.nodes[n].parent, t.nodes[n].children)
    ensures forall id :: id in t.nodes && id != n ==> r.nodes[id] == t.nodes[id]
    ensures r.root == t.root
  {
    t.(nodes := t.nodes[n := t.nodes[n].(data := data)])
  }

  // ---------------------------------------------------------------------
  // Append-only histories

  /** What the getters see after `addChild(data)`: the returned node holds
      the data, has this node as parent and no children, and is the last of
      this node's children; the root is the same. */
  lemma AddChildSeenByGetters<T>(t: Tree<T>, n: NodeId, data: T)
    requires Valid(t) && n in t.nodes
    ensures var (t2, c) := AddChild(t, n, data);
            && GetRootNode(t2) == GetRootNode(t)
            && GetData(t2, c) == data && GetParent(t2, c) == Some(n) && GetChildren(t2, c) == []
            && GetChildren(t2, n) == GetChildren(t, n) + [c]
            && GetData(t2, n) == GetData(t, n) && GetParent(t2, n) == GetParent(t, n)
  {
  }

  /** What the getters see after `addChild(node)`: the node is the last
      child, and its own data, parent and children are as before. */
  lemma AttachSeenByGetters<T>(t: Tree<T>, n: NodeId, c: NodeId)
    requires Valid(t) && n in t.nodes && c in t.nodes && c != n
    ensures var (t2, r) := Attach(t, n, c);
            && r == c && GetRootNode(t2) == GetRootNode(t)
            && GetChildren(t2, n) == GetChildren(t, n) + [c]
            && GetData(t2, c) == GetData(t, c) && GetParent(t2, c) == GetParent(t, c)
            && GetChildren(t2, c) == GetChildren(t, c)
  {
  }

  /** What the getters see after `setData`: the new data, and the same
      parent, children and root. */
  lemma SetDataSeenByGetters<T>(t: Tree<T>, n: NodeId, data: T)
    requires Valid(t) && n in t.nodes
    ensures var t2 := SetData(t, n, data);
            && GetData(t2, n) == data && GetParent(t2, n) == GetParent(t, n)
            && GetChildren(t2, n) == GetChildren(t, n) && GetRootNode(t2) == GetRootNode(t)
  {
  }

  /** `t2` is `t1` after appends only: same root, no node lost, every
      parent pointer kept, every children list extended at its end. */
  ghost predicate Grows<T>(t1: Tree<T>, t2: Tree<T>) {
    && t2.root == t1.root
    && t1.nodes.Keys <= t2.nodes.Keys
    && (forall id :: id in t1.nodes ==> t2.nodes[id].parent == t1.nodes[id].parent)
    && (forall id :: id in t1.nodes ==> t1.nodes[id].children <= t2.nodes[id].children)
  }

  lemma GrowsTransitive<T>(t1: Tree<T>, t2: Tree<T>, t3: Tree<T>)
    requires Grows(t1, t2) && Grows(t2, t3)
    ensures Grows(t1, t3)
  {
    forall id | id in t1.nodes
      ensures t1.nodes[id].children <= t3.nodes[id].children
    {
      var a, b, c := t1.nodes[id].children, t2.nodes[id].children, t3.nodes[id].children;
      assert a == b[..|a|];
      assert b == c[..|b|];
      assert a == c[..|a|];
    }
  }

  /** One call of the public API of `Tree.Node`. */
  datatype Op<T> =
    | NewNodeOp(data: T, parent: Option<NodeId>)
    | AddChildOp(at: NodeId, data: T)
    | AttachOp(at: NodeId, child: NodeId)
    | SetDataOp(at: NodeId, data: T)

  /** The references the call uses exist (a Java reference is never dangling). */
  predicate Applicable<T>(t: Tree<T>, op: Op<T>) {
    match op
    case NewNodeOp(_, parent) => parent.Some? ==> parent.value in t.nodes
    case AddChildOp(at, _) => at in t.nodes
    case AttachOp(at, child) => at in t.nodes && child in t.nodes
    case SetDataOp(at, _) => at in t.nodes
  }

  function Apply<T>(t: Tree<T>, op: Op<T>): Tree<T>
    requires Valid(t) && Applicable(t, op)
  {
    match op
    case NewNodeOp(data, parent) => NewNode(t, data, parent).0
    case AddChildOp(at, data) => AddChild(t, at, data).0
    case AttachOp(at, child) => Attach(t, at, child).0
    case SetDataOp(at, data) => SetData(t, at, data)
  }

  /** Runs a history of calls; `None` when some call names a node that does
      not exist. */
  function Replay<T>(t: Tree<T>, ops: seq<Op<T>>): Option<Tree<T>>
    requires Valid(t)
    decreases |ops|
  {
    if |ops| == 0 then Some(t)
    else if !Applicable(t, ops[0]) then None
    else Replay(Apply(t, ops[0]), ops[1..])
  }

  /** Each single call only appends. */
  lemma ApplyGrows<T>(t: Tree<T>, op: Op<T>)
    requires Valid(t) && Applicable(t, op)
    ensures Valid(Apply(t, op))
    ensures Grows(t, Apply(t, op))
  {
  }

  /** Whatever the history, the root stays the same node, no node is
      removed, no parent pointer changes, and every children list only grows
      at its end, keeping insertion order. */
  lemma {:induction false} ReplayOnlyGrows<T>(t: Tree<T>, ops: seq<Op<T>>)
    requires Valid(t)
    requires Replay(t, ops).Some?
    ensures Valid(Replay(t, ops).value)
    ensures Grows(t, Replay(t, ops).value)
    decreases |ops|
  {
    if |ops| > 0 {
      var t1 := Apply(t, ops[0]);
      ApplyGrows(t, ops[0]);
      ReplayOnlyGrows(t1, ops[1..]);
      GrowsTransitive(t, t1, Replay(t1, ops[1..]).value);
    }
  }

  // ---------------------------------------------------------------------
  // Trees built with addChild(data) only

  /** A well-formed tree: the root has no parent, every other node does,
      each child's parent pointer names the node whose list holds it, and
      ids grow from parent to child (ids are allocated in order). */
  ghost predicate Shaped<T>(t: Tree<T>) {
    && Valid(t)
    && t.nodes[t.root].parent == None
    && (forall id :: id in t.nodes && id != t.root ==> t.nodes[id].parent.Some?)
    && (forall id, i :: id in t.nodes && 0 <= i < |t.nodes[id].children| ==>
          t.nodes[t.nodes[id].children[i]].parent == Some(id))
    && (forall id, i :: id in t.nodes && 0 <= i < |t.nodes[id].children| ==>
          id < t.nodes[id].children[i])
  }

  lemma NewTreeShaped<T>(data: T)
    ensures Shaped(NewTree(data))
  {
  }

  lemma AddChildKeepsShape<T>(t: Tree<T>, n: NodeId, data: T)
    requires Shaped(t) && n in t.nodes
    ensures Shaped(AddChild(t, n, data).0)
  {
    var (t2, c) := AddChild(t, n, data);
    forall id, i | id in t2.nodes && 0 <= i < |t2.nodes[id].children|
      ensures t2.nodes[t2.nodes[id].children[i]].parent == Some(id)
      ensures id < t2.nodes[id].children[i]
    {
      if id == n && i == |t.nodes[n].children| {
        assert t2.nodes[id].children[i] == c;
      } else {
        assert id in t.nodes;
        assert t2.nodes[id].children[i] == t.nodes[id].children[i];
      }
    }
  }

  lemma SetDataKeepsShape<T>(t: Tree<T>, n: NodeId, data: T)
    requires Shaped(t) && n in t.nodes
    ensures Shaped(SetData(t, n, data))
  {
    var t2 := SetData(t, n, data);
    forall id, i | id in t2.nodes && 0 <= i < |t2.nodes[id].children|
      ensures t2.nodes[t2.nodes[id].children[i]].parent == Some(id)
    {
      assert t2.nodes[id].children[i] == t.nodes[id].children[i];
    }
  }

  /** `path` follows child edges: each element is a child of the previous. */
  ghost predicate IsPath<T>(t: Tree<T>, path: seq<NodeId>) {
    && |path| >= 1
    && (forall k :: 0 <= k < |path| ==> path[k] in t.nodes)
    && (forall k :: 0 <= k < |path| - 1 ==> path[k + 1] in t.nodes[path[k]].children)
  }

  /** In a shaped tree ids strictly grow along every non-empty path. */
  lemma {:induction false} PathIdsIncrease<T>(t: Tree<T>, path: seq<NodeId>)
    requires Shaped(t) && IsPath(t, path) && |path| >= 2
    ensures path[0] < path[|path| - 1]
    decreases |path|
  {
    assert path[1] in t.nodes[path[0]].children;
    var i :| 0 <= i < |t.nodes[path[0]].children| && t.nodes[path[0]].children[i] == path[1];
    assert path[0] < path[1];
    if |path| > 2 {
      PathIdsIncrease(t, path[1..]);
    }
  }

  /** A shaped tree has no cycle: no node is its own descendant. */
  lemma ShapedIsAcyclic<T>(t: Tree<T>, path: seq<NodeId>)
    requires Shaped(t) && IsPath(t, path) && |path| >= 2
    ensures path[0] != path[|path| - 1]
  {
    PathIdsIncrease(t, path);
  }

  /** The "fractal" capability: attaching the root below its own child makes
      the root its own descendant, while the root keeps no parent. */
  lemma AttachMakesFractal<T>(d: T, e: T)
    ensures var t0 := NewTree(d);
            var (t1, w) := AddChild(t0, t0.root, e);
            var (t2, _) := Attach(t1, w, t0.root);
            && IsPath(t2, [t0.root, w, t0.root])
            && t2.nodes[t0.root].parent == None
            && !Shaped(t2)
  {
    var t0 := NewTree(d);
    var (t1, w) := AddChild(t0, t0.root, e);
    var (t2, _) := Attach(t1, w, t0.root);
    assert t2.nodes[t0.root].children == [w];
    assert t2.nodes[w].children == [t0.root];
    assert t0.root in t2.nodes[w].children;
    assert !(t0.root < t2.nodes[w].children[0]);
  }
}

=== FILE: tree_visualizer.dfy ===
/** `TreeVisualizer`: the camera of the viewer as a state machine. The
    camera offset and zoom either follow the mouse directly (drag, wheel) or
    are animated by a timer from a begin state to a target state over one
    second, ticking every 33 ms. Every handler is a pure function from the
    old state to the new one; the timer is the `panning` flag. */
module TreeVisualizer {
  import opened Wrappers
  import opened JavaMath
  import opened RealArith
  import opened Geometry
  import opened TreeModel
  import opened TreeLoader
  import opened Layout
  import opened TreeController
  import opened Easing

  const ZoomRate: real := 0.1
  const PanDuration: real := 1.0
  /** The pan timer's delay in milliseconds, `1000 / 30` in integer division. */
  const TimerDelay: int := 1000 / 30
  /** What one tick adds to the elapsed time: `getDelay() / 1000.0`. */
  const TickSeconds: real := TimerDelay as real / 1000.0
  /** The screen position of the camera's origin: the viewport centre. */
  const CentreX: int := ViewWidth / 2
  const CentreY: int := ViewHeight / 2

  datatype Vec = Vec(x: real, y: real)

  /** The panel's camera fields. `elapsed` is the pan interpolation time and
      `panning` says whether the pan timer is running. */
  datatype Visualizer<T> = Visualizer(
    ctrl: Controller<T>,
    camera: Vec,
    begin: Vec,
    target: Vec,
    beginZoom: real,
    targetZoom: real,
    elapsed: real,
    panning: bool,
    lastMouseX: int,
    lastMouseY: int)

  /** What every handler keeps: a well-formed tree, a positive current and
      target zoom, an elapsed time within the pan duration, and a running
      timer only while time is left. */
  ghost predicate Inv<T>(v: Visualizer<T>) {
    && Valid(v.ctrl.tree)
    && ZoomOk(v.ctrl)
    && v.targetZoom > 0.0
    && v.beginZoom >= 0.0
    && 0.0 <= v.elapsed <= PanDuration
    && (v.panning ==> v.elapsed < PanDuration)
  }

  /** No animation pending: begin, target and current coincide. */
  predicate AtRest<T>(v: Visualizer<T>) {
    && !v.panning
    && v.begin == v.camera
    && v.target == v.camera
    && v.beginZoom == v.ctrl.zoom
    && v.targetZoom == v.ctrl.zoom
    && v.elapsed == 0.0
  }

  /** The constructor's camera state, for the tree it is given: camera at the
      origin, target zoom 1, begin zoom still the field default 0, timer off. */
  function Init<T>(t: Tree<T>): (v: Visualizer<T>)
    requires Valid(t)
    ensures Inv(v) && !v.panning
    ensures v.ctrl.tree == t && v.ctrl.zoom == 1.0 && v.ctrl.drawn == []
    ensures v.camera == Vec(0.0, 0.0) && v.target == Vec(0.0, 0.0)
  {
    Visualizer(NewController(t), Vec(0.0, 0.0), Vec(0.0, 0.0), Vec(0.0, 0.0),
               0.0, 1.0, 0.0, false, 0, 0)
  }

  lemma TickSecondsValue()
    ensures TickSeconds == 0.033
  {
  }

  /** One firing of the pan timer: advance the time (capped at the
      duration), pick the back curve when zooming in and the cosine curve
      otherwise, move zoom and camera along it, and stop at the end. */
  function Tick<T>(v: Visualizer<T>, tr: Trig): (r: Visualizer<T>)
    requires Inv(v) && ValidTrig(tr)
    ensures Inv(r)
    ensures r.elapsed == Min(v.elapsed + TickSeconds, PanDuration)
    ensures r.panning <==> r.elapsed < PanDuration
    ensures r.begin == v.begin && r.target == v.target
    ensures r.beginZoom == v.beginZoom && r.targetZoom == v.targetZoom
    ensures r.ctrl.tree == v.ctrl.tree && r.ctrl.drawn == v.ctrl.drawn
    ensures r.lastMouseX == v.lastMouseX && r.lastMouseY == v.lastMouseY
    ensures r.elapsed == PanDuration ==> r.camera == v.target && r.ctrl.zoom == v.targetZoom
    ensures v.targetZoom <= v.beginZoom ==>
              && v.targetZoom <= r.ctrl.zoom <= v.beginZoom
              && Min(v.begin.x, v.target.x) <= r.camera.x <= Max(v.begin.x, v.target.x)
              && Min(v.begin.y, v.target.y) <= r.camera.y <= Max(v.begin.y, v.target.y)
    ensures v.beginZoom < v.targetZoom ==> v.beginZoom < r.ctrl.zoom
    ensures var c, t := ChooseCurve(v.beginZoom, v.targetZoom), r.elapsed / PanDuration;
            && r.ctrl.zoom == Ease(tr, c, v.beginZoom, v.targetZoom, t)
            && r.camera == Vec(Ease(tr, c, v.begin.x, v.target.x, t), Ease(tr, c, v.begin.y, v.target.y, t))
  {
    var e0 := v.elapsed + TickSeconds;
    var e := if e0 > PanDuration then PanDuration else e0;
    var t := e / PanDuration;
    var curve := ChooseCurve(v.beginZoom, v.targetZoom);
    var z := Ease(tr, curve, v.beginZoom, v.targetZoom, t);
    var cx := Ease(tr, curve, v.begin.x, v.target.x, t);
    var cy := Ease(tr, curve, v.begin.y, v.target.y, t);
    EaseEndpoints(tr, curve, v.beginZoom, v.targetZoom);
    EaseEndpoints(tr, curve, v.begin.x, v.target.x);
    EaseEndpoints(tr, curve, v.begin.y, v.target.y);
    if curve == Back then
      BackNotBelowBegin(v.beginZoom, v.targetZoom, t);
      v.(ctrl := SetZoom(v.ctrl, z), camera := Vec(cx, cy), elapsed := e, panning := e < PanDuration)
    else
      CosBetween(tr, v.beginZoom, v.targetZoom, t);
      CosBetween(tr, v.begin.x, v.target.x, t);
      CosBetween(tr, v.begin.y, v.target.y, t);
      v.(ctrl := SetZoom(v.ctrl, z), camera := Vec(cx, cy), elapsed := e, panning := e < PanDuration)
  }

  /** How many more ticks a running pan takes from elapsed time `e`. */
  function TicksLeft(e: real): nat
    requires 0.0 <= e
  {
    if e >= PanDuration then 0 else ((PanDuration - e) / TickSeconds).Floor + 1
  }

  /** Every tick of a running pan brings its end one tick closer. */
  lemma TickBringsEndCloser<T>(v: Visualizer<T>, tr: Trig)
    requires Inv(v) && ValidTrig(tr) && v.panning
    ensures TicksLeft(Tick(v, tr).elapsed) < TicksLeft(v.elapsed)
  {
    TicksLeftDrops(v.elapsed);
  }

  lemma TicksLeftDrops(e: real)
    requires 0.0 <= e < PanDuration
    ensures TicksLeft(Min(e + TickSeconds, PanDuration)) < TicksLeft(e)
  {
    TickSecondsValue();
    var e1 := Min(e + TickSeconds, PanDuration);
    if e1 < PanDuration {
      assert e1 == e + 0.033;
      var q := (PanDuration - e) / 0.033;
      assert (PanDuration - e1) / 0.033 == q - 1.0;
      FloorShift(q);
    }
  }

  lemma FloorShift(q: real)
    ensures (q - 1.0).Floor == q.Floor - 1
  {
    var f := q.Floor;
    assert f as real <= q < f as real + 1.0;
    assert (f - 1) as real <= q - 1.0 < (f - 1) as real + 1.0;
  }

  /** The state once the pan timer has stopped: ticks until `panning` is
      false. A running pan always ends exactly at its target camera and
      target zoom; a stopped one is left as it is. */
  function Settle<T>(v: Visualizer<T>, tr: Trig): (r: Visualizer<T>)
    requires Inv(v) && ValidTrig(tr)
    ensures Inv(r) && !r.panning
    ensures r.begin == v.begin && r.target == v.target
    ensures r.beginZoom == v.beginZoom && r.targetZoom == v.targetZoom
    ensures r.ctrl.tree == v.ctrl.tree
    ensures v.panning ==> r.camera == v.target && r.ctrl.zoom == v.targetZoom && r.elapsed == PanDuration
    ensures !v.panning ==> r == v
    decreases TicksLeft(v.elapsed)
  {
    if !v.panning then v
    else
      TickBringsEndCloser(v, tr);
      Settle(Tick(v, tr), tr)
  }

  /** The pan timer run to its end, one tick per iteration. Returns the
      settled state and the number of ticks: the first tick count at which
      the elapsed time reaches the duration; 31 for a pan started from 0. */
  method Animate<T>(v: Visualizer<T>, tr: Trig) returns (w: Visualizer<T>, ticks: nat)
    requires Inv(v) && ValidTrig(tr)
    ensures w == Settle(v, tr)
    ensures !v.panning ==> ticks == 0
    ensures v.panning ==> ticks >= 1
    ensures v.panning ==> v.elapsed + TickSeconds * (ticks - 1) as real < PanDuration
    ensures v.panning ==> PanDuration <= v.elapsed + TickSeconds * ticks as real
    ensures v.panning && v.elapsed == 0.0 ==> ticks == 31
  {
    TickSecondsValue();
    w := v;
    ticks := 0;
    while w.panning
      invariant Inv(w)
      invariant Settle(w, tr) == Settle(v, tr)
      invariant !v.panning ==> ticks == 0 && w == v
      invariant v.panning && w.panning ==> w.elapsed == v.elapsed + TickSeconds * ticks as real
      invariant v.panning && !w.panning ==> ticks >= 1
      invariant v.panning && !w.panning ==> v.elapsed + TickSeconds * (ticks - 1) as real < PanDuration
      invariant v.panning && !w.panning ==> PanDuration <= v.elapsed + TickSeconds * ticks as real
      decreases TicksLeft(w.elapsed)
    {
      TickBringsEndCloser(w, tr);
      w := Tick(w, tr);
      ticks := ticks + 1;
    }
  }

  /** `mousePressed`: remember where the mouse went down. */
  function Press<T>(v: Visualizer<T>, mx: int, my: int): (r: Visualizer<T>)
    ensures r.lastMouseX == mx && r.lastMouseY == my
    ensures r.(lastMouseX := v.lastMouseX, lastMouseY := v.lastMouseY) == v
  {
    v.(lastMouseX := mx, lastMouseY := my)
  }

  /** `mouseDragged`: move the camera by the mouse's `int` offset since the
      last event, and cancel any animation by making the current state the
      begin and target state and stopping the timer. */
  function Drag<T>(v: Visualizer<T>, mx: int, my: int): (r: Visualizer<T>)
    requires Inv(v)
    ensures Inv(r) && AtRest(r)
    ensures r.ctrl == v.ctrl
    ensures r.lastMouseX == mx && r.lastMouseY == my
    ensures -TwoTo31 <= mx - v.lastMouseX < TwoTo31 ==> r.camera.x - v.camera.x == (mx - v.lastMouseX) as real
    ensures -TwoTo31 <= my - v.lastMouseY < TwoTo31 ==> r.camera.y - v.camera.y == (my - v.lastMouseY) as real
  {
    var dx := Int32(mx - v.lastMouseX);
    var dy := Int32(my - v.lastMouseY);
    var cam := Vec(v.camera.x + dx as real, v.camera.y + dy as real);
    v.(camera := cam, begin := cam, target := cam,
       beginZoom := v.ctrl.zoom, targetZoom := v.ctrl.zoom,
       elapsed := 0.0, panning := false,
       lastMouseX := mx, lastMouseY := my)
  }

  /** A drag is path-independent: two drags move the camera as far as one
      drag straight to the final mouse position, as long as no offset wraps. */
  lemma DragsCompose<T>(v: Visualizer<T>, mx1: int, my1: int, mx2: int, my2: int)
    requires Inv(v)
    requires -TwoTo31 <= mx1 - v.lastMouseX < TwoTo31 && -TwoTo31 <= my1 - v.lastMouseY < TwoTo31
    requires -TwoTo31 <= mx2 - mx1 < TwoTo31 && -TwoTo31 <= my2 - my1 < TwoTo31
    requires -TwoTo31 <= mx2 - v.lastMouseX < TwoTo31 && -TwoTo31 <= my2 - v.lastMouseY < TwoTo31
    ensures Drag(Drag(v, mx1, my1), mx2, my2) == Drag(v, mx2, my2)
  {
    var a := Drag(Drag(v, mx1, my1), mx2, my2);
    var b := Drag(v, mx2, my2);
    assert a.camera == b.camera;
  }

  /** Pressing and dragging at the same point does not move the camera. */
  lemma PressThenDragInPlace<T>(v: Visualizer<T>, mx: int, my: int)
    requires Inv(v)
    ensures Drag(Press(v, mx, my), mx, my).camera == v.camera
  {
  }

  /** `panCameraToPoint`: start a timed pan whose target brings the screen
      point to the viewport centre; the offset is an `int` subtraction. */
  function PanCameraToPoint<T>(v: Visualizer<T>, px: int, py: int): (r: Visualizer<T>)
    requires Inv(v)
    ensures Inv(r) && r.panning && r.elapsed == 0.0
    ensures r.begin == v.camera && r.camera == v.camera && r.ctrl == v.ctrl
    ensures r.beginZoom == v.beginZoom && r.targetZoom == v.targetZoom
    ensures -TwoTo31 <= px - CentreX < TwoTo31 ==> px as real + (r.target.x - v.camera.x) == CentreX as real
    ensures -TwoTo31 <= py - CentreY < TwoTo31 ==> py as real + (r.target.y - v.camera.y) == CentreY as real
    ensures r.(target := v.target, begin := v.begin, elapsed := v.elapsed, panning := v.panning) == v
  {
    v.(target := Vec(v.camera.x - Int32(px - CentreX) as real, v.camera.y - Int32(py - CentreY) as real),
       begin := v.camera,
       elapsed := 0.0, panning := true)
  }

  /** `zoomView`: cancel any animation, scale the zoom by `1 + amount / 10`
      (the request is ignored unless that is positive), and scale the camera
      offset by the same factor. The screen point it is given is unused. */
  function ZoomView<T>(v: Visualizer<T>, amount: real): (r: Visualizer<T>)
    requires Inv(v)
    ensures Inv(r) && !r.panning && r.elapsed == 0.0
    ensures r.begin == v.camera && r.target == v.camera
    ensures r.beginZoom == v.ctrl.zoom && r.targetZoom == v.ctrl.zoom
    ensures r.ctrl.tree == v.ctrl.tree && r.ctrl.drawn == v.ctrl.drawn
    ensures amount > -10.0 ==> r.ctrl.zoom == v.ctrl.zoom * (1.0 + amount / 10.0)
    ensures amount <= -10.0 ==> r.ctrl.zoom == v.ctrl.zoom
    ensures r.camera.x * v.ctrl.zoom == v.camera.x * r.ctrl.zoom
    ensures r.camera.y * v.ctrl.zoom == v.camera.y * r.ctrl.zoom
    ensures r.ctrl == v.ctrl.(zoom := r.ctrl.zoom)
    ensures r.lastMouseX == v.lastMouseX && r.lastMouseY == v.lastMouseY
  {
    var z0 := v.ctrl.zoom;
    var delta := amount * ZoomRate * z0;
    var c := SetZoom(v.ctrl, z0 + delta);
    ZoomStep(v.ctrl, amount);
    Rescale(v.camera.x, z0, c.zoom);
    Rescale(v.camera.y, z0, c.zoom);
    v.(begin := v.camera, target := v.camera,
       beginZoom := z0, targetZoom := z0,
       elapsed := 0.0, panning := false,
       ctrl := c,
       camera := Vec(v.camera.x / z0 * c.zoom, v.camera.y / z0 * c.zoom))
  }

  /** The zoom after `setZoom(z0 + amount * 0.1 * z0)`. */
  lemma ZoomStep<T>(c: Controller<T>, amount: real)
    requires ZoomOk(c)
    ensures amount > -10.0 ==> SetZoom(c, c.zoom + amount * ZoomRate * c.zoom).zoom == c.zoom * (1.0 + amount / 10.0)
    ensures amount <= -10.0 ==> SetZoom(c, c.zoom + amount * ZoomRate * c.zoom).zoom == c.zoom
  {
    ZoomFactorSign(c.zoom, amount);
  }

  /** The requested zoom `z0 + amount * 0.1 * z0` is positive exactly when
      `amount > -10`. */
  lemma ZoomFactorSign(z0: real, amount: real)
    requires z0 > 0.0
    ensures z0 + amount * ZoomRate * z0 == z0 * (1.0 + amount / 10.0)
    ensures z0 + amount * ZoomRate * z0 > 0.0 <==> amount > -10.0
  {
    if amount > -10.0 {
      ProductPositive(z0, 1.0 + amount / 10.0);
    } else {
      ScaleNonNegative(1.0 + amount / 10.0, 0.0, z0);
    }
  }

  /** `a / z0 * z1` is `a` rescaled from zoom `z0` to zoom `z1`. */
  lemma Rescale(a: real, z0: real, z1: real)
    requires z0 != 0.0
    ensures (a / z0 * z1) * z0 == a * z1
  {
    DivideBack(a, z0);
    assert (a / z0 * z1) * z0 == ((a / z0) * z0) * z1;
  }

  /** The screen coordinate at which world offset `w` is drawn under camera
      offset `cam`, centre `centre` and zoom `z`. */
  function ScreenOf(cam: real, centre: int, w: real, z: real): real {
    cam + centre as real + w * z
  }

  /** Zooming keeps the viewport centre fixed: every point's distance to
      the centre scales by exactly the ratio of the new to the old zoom. */
  lemma ZoomKeepsCentreFixed<T>(v: Visualizer<T>, amount: real, wx: real, wy: real)
    requires Inv(v)
    ensures var r := ZoomView(v, amount);
            && (ScreenOf(r.camera.x, CentreX, wx, r.ctrl.zoom) - CentreX as real) * v.ctrl.zoom
               == (ScreenOf(v.camera.x, CentreX, wx, v.ctrl.zoom) - CentreX as real) * r.ctrl.zoom
            && (ScreenOf(r.camera.y, CentreY, wy, r.ctrl.zoom) - CentreY as real) * v.ctrl.zoom
               == (ScreenOf(v.camera.y, CentreY, wy, v.ctrl.zoom) - CentreY as real) * r.ctrl.zoom
  {
    var r := ZoomView(v, amount);
    AxisFixed(r.camera.x, v.camera.x, wx, v.ctrl.zoom, r.ctrl.zoom, CentreX);
    AxisFixed(r.camera.y, v.camera.y, wy, v.ctrl.zoom, r.ctrl.zoom, CentreY);
  }

  /** One axis of `ZoomKeepsCentreFixed`: with the camera offset rescaled
      from zoom `z0` to zoom `z1`, the distance of world offset `w` from the
      centre rescales the same way. */
  lemma AxisFixed(a: real, b: real, w: real, z0: real, z1: real, centre: int)
    requires a * z0 == b * z1
    ensures (ScreenOf(a, centre, w, z1) - centre as real) * z0 == (ScreenOf(b, centre, w, z0) - centre as real) * z1
  {
    ShiftRescaled(a, b, w, z0, z1);
    assert ScreenOf(a, centre, w, z1) - centre as real == a + w * z1;
    assert ScreenOf(b, centre, w, z0) - centre as real == b + w * z0;
  }

  /** An offset rescaled from zoom `z0` to zoom `z1` stays rescaled after
      adding the same world offset `w` drawn at each zoom. */
  lemma ShiftRescaled(a: real, b: real, w: real, z0: real, z1: real)
    requires a * z0 == b * z1
    ensures (a + w * z1) * z0 == (b + w * z0) * z1
  {
    assert (a + w * z1) * z0 == a * z0 + w * (z1 * z0);
    assert (b + w * z0) * z1 == b * z1 + w * (z0 * z1);
  }

  /** `mouseWheelMoved`: each notch toward the user zooms out by 5%, each
      notch away zooms in by 5%; twenty or more notches out are ignored. */
  function MouseWheel<T>(v: Visualizer<T>, notches: int): (r: Visualizer<T>)
    requires Inv(v)
    ensures Inv(r) && !r.panning && r.elapsed == 0.0
    ensures r.begin == v.camera && r.target == v.camera
    ensures r.beginZoom == v.ctrl.zoom && r.targetZoom == v.ctrl.zoom
    ensures r.ctrl == v.ctrl.(zoom := r.ctrl.zoom)
    ensures r.lastMouseX == v.lastMouseX && r.lastMouseY == v.lastMouseY
    ensures notches < 20 ==> r.ctrl.zoom == v.ctrl.zoom * (1.0 - 0.05 * notches as real)
    ensures notches >= 20 ==> r.ctrl.zoom == v.ctrl.zoom
    ensures r.camera.x * v.ctrl.zoom == v.camera.x * r.ctrl.zoom
    ensures r.camera.y * v.ctrl.zoom == v.camera.y * r.ctrl.zoom
  {
    ZoomView(v, notches as real * -0.5)
  }

  /** `zoomCameraSmooth`: start a timed zoom from the current zoom to the
      requested one (the current one if the request is not positive),
      scaling the target camera offset by the zoom ratio. The controller's
      zoom is probed through `setZoom` and put back, so it is unchanged. */
  function ZoomCameraSmooth<T>(v: Visualizer<T>, zoom: real): (r: Visualizer<T>)
    requires Inv(v)
    ensures Inv(r) && r.panning && r.elapsed == 0.0
    ensures r.ctrl == v.ctrl && r.camera == v.camera && r.begin == v.begin
    ensures r.beginZoom == v.ctrl.zoom
    ensures zoom > 0.0 ==> r.targetZoom == zoom
    ensures zoom <= 0.0 ==> r.targetZoom == v.ctrl.zoom
    ensures r.target.x * v.ctrl.zoom == v.target.x * r.targetZoom
    ensures r.target.y * v.ctrl.zoom == v.target.y * r.targetZoom
    ensures r.(target := v.target, beginZoom := v.beginZoom, targetZoom := v.targetZoom,
               elapsed := v.elapsed, panning := v.panning) == v
  {
    var bz := v.ctrl.zoom;
    var probe := SetZoom(v.ctrl, zoom);
    var tz := probe.zoom;
    var c := SetZoom(probe, bz);
    Rescale(v.target.x, bz, tz);
    Rescale(v.target.y, bz, tz);
    v.(ctrl := c, beginZoom := bz, targetZoom := tz,
       elapsed := 0.0, panning := true,
       target := Vec(v.target.x / bz * tz, v.target.y / bz * tz))
  }

  /** `resetView`: zoom 1 and camera at the origin, now and as the target.
      A running pan is not stopped and its begin state is kept. */
  function ResetView<T>(v: Visualizer<T>): (r: Visualizer<T>)
    requires Inv(v)
    ensures Inv(r)
    ensures r.panning == v.panning && r.elapsed == v.elapsed && r.begin == v.begin
    ensures r.ctrl.tree == v.ctrl.tree
    ensures r.camera == Vec(0.0, 0.0) && r.ctrl.zoom == 1.0
    ensures r.target == Vec(0.0, 0.0) && r.targetZoom == 1.0
    ensures r == v.(ctrl := v.ctrl.(zoom := 1.0), camera := Vec(0.0, 0.0), target := Vec(0.0, 0.0), targetZoom := 1.0)
  {
    v.(ctrl := SetZoom(v.ctrl, 1.0), camera := Vec(0.0, 0.0), target := Vec(0.0, 0.0), targetZoom := 1.0)
  }

  /** A reset holds even in the middle of a pan: the still-running timer
      ends at the origin with zoom 1. */
  lemma ResetHoldsAfterPan<T>(v: Visualizer<T>, tr: Trig)
    requires Inv(v) && ValidTrig(tr)
    ensures Settle(ResetView(v), tr).camera == Vec(0.0, 0.0)
    ensures Settle(ResetView(v), tr).ctrl.zoom == 1.0
  {
    var r := ResetView(v);
    if r.panning {
      assert Settle(r, tr).camera == r.target;
    }
  }

  /** `mouseClicked`: a double click on a recorded circle starts a pan
      toward its centre and a zoom that makes its radius 50; any other click
      changes nothing. */
  function MouseClicked<T>(v: Visualizer<T>, clicks: int, px: int, py: int): (r: Visualizer<T>)
    requires Inv(v)
    ensures Inv(r)
    ensures clicks != 2 || CircleAtPoint(v.ctrl.drawn, px, py).None? ==> r == v
    ensures clicks == 2 && CircleAtPoint(v.ctrl.drawn, px, py).Some? ==>
              r == FocusOn(v, CircleAtPoint(v.ctrl.drawn, px, py).value)
  {
    if clicks != 2 then v
    else
      match CircleAtPoint(v.ctrl.drawn, px, py)
      case None => v
      case Some(c) => FocusOn(v, c)
  }

  /** The double-click response to a hit circle: pan toward its centre and
      zoom so that its radius becomes 50. */
  function FocusOn<T>(v: Visualizer<T>, c: Circle): (r: Visualizer<T>)
    requires Inv(v) && c.radius >= 1
    ensures Inv(r)
    ensures r.panning && r.elapsed == 0.0
    ensures r.ctrl == v.ctrl && r.camera == v.camera && r.begin == v.camera
    ensures r.beginZoom == v.ctrl.zoom
    ensures r.targetZoom * c.radius as real == PrimaryNodeRadius as real * v.ctrl.zoom
    ensures r.target.x * v.ctrl.zoom == (v.camera.x - Int32(c.x - CentreX) as real) * r.targetZoom
    ensures r.target.y * v.ctrl.zoom == (v.camera.y - Int32(c.y - CentreY) as real) * r.targetZoom
    ensures r.lastMouseX == v.lastMouseX && r.lastMouseY == v.lastMouseY
  {
    ClickZoomFacts(v.ctrl.zoom, c.radius);
    var ratio := PrimaryNodeRadius as real / c.radius as real;
    ZoomCameraSmooth(PanCameraToPoint(v, c.x, c.y), v.ctrl.zoom * ratio)
  }

  /** The zoom a double click aims for is positive and scales the clicked
      radius to 50. */
  lemma ClickZoomFacts(z0: real, radius: int)
    requires z0 > 0.0 && radius >= 1
    ensures z0 * (PrimaryNodeRadius as real / radius as real) > 0.0
    ensures z0 * (PrimaryNodeRadius as real / radius as real) * radius as real == PrimaryNodeRadius as real * z0
  {
    var ratio := PrimaryNodeRadius as real / radius as real;
    ProductPositive(z0, ratio);
    DivideBack(PrimaryNodeRadius as real, radius as real);
    assert z0 * ratio * radius as real == z0 * (ratio * radius as real);
  }

  /** A target zoom that scales a radius of `50 sp z0` to 50 gives a node of
      size percent `sp` the radius 50. */
  lemma TargetZoomSizes(z0: real, z1: real, sp: real)
    requires z0 > 0.0
    requires z1 * RadiusReal(sp, z0) == PrimaryNodeRadius as real * z0
    ensures RadiusReal(sp, z1) == PrimaryNodeRadius as real
  {
    var a := sp * z0;
    assert RadiusReal(sp, z0) == 50.0 * a;
    assert z1 * (50.0 * a) == 50.0 * (z1 * a);
    assert z1 * a == z0;
    assert (z1 * sp) * z0 == z1 * a;
    CancelFactor(z1 * sp, 1.0, z0);
    assert RadiusReal(sp, z1) == 50.0 * (z1 * sp);
  }

  /** A pan target that cancels the screen offset `w z0` of a point,
      rescaled by `z1 / z0`, cancels its offset `w z1` at the new zoom. */
  lemma TargetCentres(cam: real, cx: int, centre: int, w: real, z0: real, z1: real, t1: real)
    requires z0 > 0.0
    requires cx as real == ScreenOf(cam, centre, w, z0)
    requires t1 * z0 == (cam - (cx - centre) as real) * z1
    ensures ScreenOf(t1, centre, w, z1) == centre as real
  {
    var t0 := cam - (cx - centre) as real;
    assert t0 == -(w * z0);
    assert t1 * z0 == (-(w * z1)) * z0;
    CancelFactor(t1, -(w * z1), z0);
  }

  /** Double-clicking a node centres it and gives it the primary radius:
      for a circle drawn at world offset (wx, wy) with size percent `sp`,
      once the animation ends the same offset is drawn at the viewport
      centre and a node of that size has radius exactly 50. */
  lemma DoubleClickCentresNode<T>(v: Visualizer<T>, tr: Trig, px: int, py: int,
                                  wx: real, wy: real, sp: real)
    requires Inv(v) && ValidTrig(tr)
    requires CircleAtPoint(v.ctrl.drawn, px, py).Some?
    requires var c := CircleAtPoint(v.ctrl.drawn, px, py).value;
             && c.x as real == ScreenOf(v.camera.x, CentreX, wx, v.ctrl.zoom)
             && c.y as real == ScreenOf(v.camera.y, CentreY, wy, v.ctrl.zoom)
             && c.radius as real == RadiusReal(sp, v.ctrl.zoom)
             && -TwoTo31 <= c.x - CentreX < TwoTo31
             && -TwoTo31 <= c.y - CentreY < TwoTo31
    ensures var w := Settle(MouseClicked(v, 2, px, py), tr);
            && ScreenOf(w.camera.x, CentreX, wx, w.ctrl.zoom) == CentreX as real
            && ScreenOf(w.camera.y, CentreY, wy, w.ctrl.zoom) == CentreY as real
            && RadiusReal(sp, w.ctrl.zoom) == PrimaryNodeRadius as real
  {
    var c := CircleAtPoint(v.ctrl.drawn, px, py).value;
    assert MouseClicked(v, 2, px, py) == FocusOn(v, c);
    FocusCentres(v, tr, c, wx, wy, sp);
  }

  /** Once its animation ends, `FocusOn` has the circle's world offset at
      the viewport centre and its node at radius 50. */
  lemma FocusCentres<T>(v: Visualizer<T>, tr: Trig, c: Circle, wx: real, wy: real, sp: real)
    requires Inv(v) && ValidTrig(tr) && c.radius >= 1
    requires c.x as real == ScreenOf(v.camera.x, CentreX, wx, v.ctrl.zoom)
    requires c.y as real == ScreenOf(v.camera.y, CentreY, wy, v.ctrl.zoom)
    requires c.radius as real == RadiusReal(sp, v.ctrl.zoom)
    requires -TwoTo31 <= c.x - CentreX < TwoTo31 && -TwoTo31 <= c.y - CentreY < TwoTo31
    ensures var w := Settle(FocusOn(v, c), tr);
            && ScreenOf(w.camera.x, CentreX, wx, w.ctrl.zoom) == CentreX as real
            && ScreenOf(w.camera.y, CentreY, wy, w.ctrl.zoom) == CentreY as real
            && RadiusReal(sp, w.ctrl.zoom) == PrimaryNodeRadius as real
  {
    var z0 := v.ctrl.zoom;
    var r := FocusOn(v, c);
    var z1 := r.targetZoom;
    TargetZoomSizes(z0, z1, sp);
    TargetCentres(v.camera.x, c.x, CentreX, wx, z0, z1, r.target.x);
    TargetCentres(v.camera.y, c.y, CentreY, wy, z0, z1, r.target.y);
  }

  /** `paint`: draw the tree with its root at the camera offset from the
      viewport centre, the offset `(long)`-cast; only the recorded circles
      change. */
  function Paint<T>(v: Visualizer<T>, tr: Trig): (r: Visualizer<T>)
    requires Inv(v) && ValidTrig(tr)
    ensures Inv(r)
    ensures r.(ctrl := r.ctrl.(drawn := v.ctrl.drawn)) == v
  {
    v.(ctrl := Draw(v.ctrl, tr, Trunc(v.camera.x) + CentreX, Trunc(v.camera.y) + CentreY))
  }

  /** Painting twice is painting once: a frame does not depend on the
      circles recorded by the frame before. */
  lemma PaintIdempotent<T>(v: Visualizer<T>, tr: Trig)
    requires Inv(v) && ValidTrig(tr)
    ensures Paint(Paint(v, tr), tr) == Paint(v, tr)
  {
    var p := Paint(v, tr);
    DrawForgetsEarlierFrames(v.ctrl, tr, Trunc(v.camera.x) + CentreX, Trunc(v.camera.y) + CentreY, p.ctrl.drawn);
  }

  /** When the root's centre is on screen, painting records the root's
      circle first, so a double click on its centre finds it. */
  lemma PaintRecordsRootFirst<T>(v: Visualizer<T>, tr: Trig)
    requires Inv(v) && ValidTrig(tr)
    requires OnScreen(Trunc(v.camera.x) + CentreX, Trunc(v.camera.y) + CentreY)
    requires 1 <= Radius(1.0, v.ctrl.zoom) < TwoTo31
    ensures var x, y := Trunc(v.camera.x) + CentreX, Trunc(v.camera.y) + CentreY;
            CircleAtPoint(Paint(v, tr).ctrl.drawn, x, y) == Some(Circle(x, y, Radius(1.0, v.ctrl.zoom)))
  {
    var x, y := Trunc(v.camera.x) + CentreX, Trunc(v.camera.y) + CentreY;
    var rad := Radius(1.0, v.ctrl.zoom);
    DrawRecordsRootFirst(v.ctrl, tr, x, y);
    CentreHits(x, y, rad);
    FirstCircleHit(Paint(v, tr).ctrl.drawn, x, y);
  }

  /** A circle of radius at least 1 contains its own centre. */
  lemma CentreHits(x: int, y: int, rad: int)
    requires 1 <= rad
    ensures InCircle(x, y, Circle(x, y, rad))
  {
    assert Int32(0) == 0;
  }

  lemma FirstCircleHit(drawn: seq<Circle>, px: int, py: int)
    requires |drawn| > 0 && InCircle(px, py, drawn[0])
    ensures CircleAtPoint(drawn, px, py) == Some(drawn[0])
  {
  }

  /** The Load button on a file's text: a tree that parses replaces the
      shown one and resets the view; a parse failure changes nothing. */
  function OpenTree(v: Visualizer<Option<string>>, text: string): (r: Visualizer<Option<string>>)
    requires Inv(v)
    ensures Inv(r)
    ensures Load(text).Ok? ==>
              && r.ctrl.tree == Load(text).value
              && r.camera == Vec(0.0, 0.0) && r.ctrl.zoom == 1.0
              && r.target == Vec(0.0, 0.0) && r.targetZoom == 1.0
    ensures Load(text).Ok? ==>
              && r.ctrl == v.ctrl.(tree := Load(text).value, zoom := 1.0)
              && r.(ctrl := v.ctrl, camera := v.camera, target := v.target, targetZoom := v.targetZoom) == v
    ensures Load(text).Err? ==> r == v
  {
    match Load(text)
    case Ok(t) => ResetView(v.(ctrl := SetTree(v.ctrl, t)))
    case Err(_) => v
  }
}

=== FILE: wrappers.dfy ===
/** Failure-carrying datatypes shared by the rest of the model.
    `None` stands for a Java `null` reference; `Err` for an exception. */
module Wrappers {

  datatype Option<+T> = None | Some(value: T)

  datatype Result<+T, +E> = Ok(value: T) | Err(error: E)
}
